=== FILE: README.md ===
# Daily word engine — a Dafny model

This project models the vocabulary app's daily word assignment. The
`GET /api/words` handler is meant to give a signed-in learner up to two new
words per New York calendar day (fewer once the catalog runs out). It
records them in a `learned_words` ledger, and a repeat visit inside the
same day window serves the window's words again. The window the code
computes misses the New York day in places; see Findings. The handler also
returns the words learned before the window, each with the time it was
learned.
The catalog import script's dedup filter is covered too: entries whose
`word` text is already stored are skipped, and the rest are inserted with a
creation time.

Modules, in dependency order:

- `Seqs`: an order-preserving `Filter` (JavaScript's `Array.prototype.filter`), subsequences and distinctness.
- `Vocab`: the `Word` and `LearnedWord` records and the two uniqueness constraints of the collections.
- `Store`: the three store operations the engine relies on, as pure functions:
  - find by a set of ids;
  - draw a `$sample` from a filtered collection;
  - an unordered `insertMany` against the ledger's unique (userId, wordId) index.
- `DayWindow`: the day window. It exists in two forms: the helper as written, and the window it is meant to compute.
- `WordsRoute`: the handler:
  - session check;
  - partition of the user's records into today and earlier;
  - reuse path and sample path;
  - recording;
  - history projection.
- `ImportWords`: the import script from the parsed file on.

The store is an immutable value `Db(words, learned)`. Each handler reply
records the store calls it made, in order, so "no read", "no write" and
"only this write" can be stated. What the handler cannot see is a
parameter:

- the session (`Option<UserId>`);
- the instant `now` and the zone (an offset function over integer milliseconds);
- the random numbers behind `$sample`;
- the clock reading taken for each ledger entry or imported document;
- the ledger entries whose write fails for a reason other than a duplicate key.

Three points where the code does something other than what it seems to intend. The model follows the code in each:

- The comment at src/app/api/words/route.ts:72 speaks of duplicate-key errors, but the `catch` around the ledger insert (route.ts:69-73) swallows every error. The model drops any entry in `failed`, and the reply is the same whatever fails.
- Each new ledger entry gets its own `new Date()` (route.ts:63-67), so each entry carries its own clock reading rather than the request's time.
- The day window is wrong across daylight-saving changes and shifted by the request's milliseconds; see Findings. `WordsRoute.Get` is the handler as written, with the helper's window. `WordsRoute.GetCorrected` is the same handler with the window of `now`'s New York calendar day.

## Model

| member | source | states |
|---|---|---|
| DayWindow.TodayRangeAsWritten | src/app/api/words/route.ts:6-20 | The window as the helper computes it contains `now` and spans one day less 1 ms. Its start plus the single offset measured at `now` falls on a day boundary, so both bounds are shifted by that same offset. |
| DayWindow.AsWrittenWindowIsFixedOffsetDay | src/app/api/words/route.ts:8-18 | An instant is in the as-written window exactly when it lies on `now`'s calendar day of a clock running at the fixed offset measured at `now`, less the milliseconds `toLocaleString` drops. |
| DayWindow.AsWrittenWindowOpensAnHourEarly | src/app/api/words/route.ts:8-18 | Counterexample on the 2026 spring-forward day: at noon EDT the as-written window already contains 23:30 EST of the previous evening, an instant of an earlier New York day, which the corrected window excludes. |
| DayWindow.AsWrittenWindowDropsFirstMilliseconds | src/app/api/words/route.ts:8 | Counterexample: a request at 12:00:00.500 gets a window starting after 00:00:00.200 of the same New York day, which the corrected window contains. |
| DayWindow.AsWrittenWindowStartsAtRequest | src/app/api/words/route.ts:8-18 | Take requests at 00:00:00.300 and 00:00:00.900 EDT on 2026-03-10. They lie on the same New York day, as does every instant between them, yet the as-written window of the later one starts at that very instant. |
| DayWindow.WholeSeconds | src/app/api/words/route.ts:8 | The re-parsed date is the reading less its milliseconds: a whole second, at most 999 ms before the reading. |
| DayWindow.DayFloor | src/app/api/words/route.ts:9-10 | The start of the UTC-frame calendar day that holds the reading: a day boundary at most one day less 1 ms before it. |
| DayWindow.FirstInstantOfDay | src/app/api/words/route.ts:9-10 | Bisection returns the first instant whose local calendar day is `d`: the instant before it lies on an earlier day. |
| DayWindow.FirstInstantSplits | src/app/api/words/route.ts:9-10 | On a zone whose calendar never runs backwards, an instant lies before that first instant exactly when its day is earlier than `d`. |
| DayWindow.TodayRange | src/app/api/words/route.ts:6-20 | The corrected window contains `now`, and an instant is in it exactly when its New York calendar day is that of `now`. |
| DayWindow.SameDaySameWindow | src/app/api/words/route.ts:33 | Two instants of the same New York day get the same window. |
| DayWindow.OtherDaysOutsideWindow | src/app/api/words/route.ts:43-44 | Instants of earlier days lie before the window's start; instants of later days lie after its end. |
| Store.FindByIds | src/lib/mongodb.ts:29-43 | `find({_id: {$in: ids}})` returns exactly the catalog words whose id is requested, as a subsequence of the collection (an order the model fixes). |
| Store.Draw | src/lib/mongodb.ts:67-77 | The sampler returns distinct documents of the matching pool, `min(n, pool size)` of them. |
| Store.DrawReachesEverySample | src/lib/mongodb.ts:67-77 | Every admissible sample (distinct, from the pool, of size `min(n, pool size)`) is produced by some random input, so the sampler loses none of `$sample`'s freedom. |
| Store.InsertUnordered | src/lib/mongodb.ts:51-59 | An unordered insert only appends to the ledger; every stored record stays where it was. |
| Store.InsertAddsOnlyBatchEntries | src/lib/mongodb.ts:51-59 | Every record the insert appends is an entry of the batch whose write did not fail. |
| Store.InsertStoresEveryPair | src/app/api/words/route.ts:69-73 | After the insert, every batch entry that did not fail for a non-duplicate reason has its (userId, wordId) pair on the ledger. |
| Store.InsertKeepsUniquePairs | src/app/api/words/route.ts:69-73 | The insert never stores a second record for a pair, so the ledger's one-record-per-pair constraint survives it. |
| Store.InsertOfUnstoredPairGrows | src/lib/mongodb.ts:51-59 | Inserting an entry whose pair is not stored yet, and whose write does not fail, changes the ledger. |
| Store.InsertFreshBatch | src/lib/mongodb.ts:51-59 | A pairwise-distinct batch with no stored pair and no failures is appended whole, in order. |
| WordsRoute.LearnedBy | src/app/api/words/route.ts:36-39 | The user's records are exactly the ledger records carrying the session's user id. |
| WordsRoute.LearnedToday | src/app/api/words/route.ts:43 | Today's records are exactly the user's records with `start <= learnedAt <= end`, both ends inclusive. |
| WordsRoute.LearnedBefore | src/app/api/words/route.ts:44 | The earlier records are exactly the user's records with `learnedAt < start`. |
| WordsRoute.RecordsPartition | src/app/api/words/route.ts:40-44 | No record is both today's and earlier. A record after the window is in neither, but its word id still counts among the all-time learned ids. |
| WordsRoute.RecordsSplitByNewYorkDay | src/app/api/words/route.ts:33-44 | With the corrected window, today's records are those of `now`'s New York day and the earlier records are those of earlier days. |
| WordsRoute.Unseen | src/app/api/words/route.ts:40-57 | The sample pool is exactly the catalog words whose id is not among the user's all-time learned ids, and it has no repetition. |
| WordsRoute.Entries | src/app/api/words/route.ts:63-67 | One ledger entry per sampled word, in order, with the session user, that word's id and its own clock reading. |
| WordsRoute.LearnedAtMap | src/app/api/words/route.ts:81 | The map has one key per word id of the records, and for each id the `learnedAt` of its last record. |
| WordsRoute.History | src/app/api/words/route.ts:77-87 | The history is empty when there are no earlier records; otherwise every item is a catalog word whose id an earlier record names. |
| WordsRoute.HistoryMatchesRecords | src/app/api/words/route.ts:81-86 | Each history item carries the `learnedAt` of an earlier record of its word, and every catalog word that such a record names is listed. |
| WordsRoute.LastRecordOf | src/app/api/words/route.ts:81-85 | The map's value for a stored id is the `learnedAt` of some record with that id. |
| WordsRoute.HistoryLookup | src/app/api/words/route.ts:80-82 | The history lookup happens exactly when there are earlier records, and it writes nothing. |
| WordsRoute.ServeAgain | src/app/api/words/route.ts:47-52 | Reuse path: the store is unchanged, nothing is written, and the words are exactly the catalog words named by today's records. |
| WordsRoute.ServeSample | src/app/api/words/route.ts:53-74 | Sample path: the drawn words are returned. Their entries are the trace's only write, the ledger becomes the unordered insert of those entries, and an empty sample writes nothing. |
| WordsRoute.Respond | src/app/api/words/route.ts:33-89 | The handler for a signed-in user. The first call reads the user's records and the catalog never changes. With records today, nothing changes and the words are exactly today's. Without any, the words are a sample of the unseen words and their entries are written. The history is that of the earlier records. |
| WordsRoute.RespondDrawsUnseenWords | src/app/api/words/route.ts:40-59 | With nothing learned today, the words are `min(2, unseen)` distinct catalog words. None was ever given to the user, future-dated records included, and the ledger gains their entries. |
| WordsRoute.RespondWritesOnlyNewSamples | src/app/api/words/route.ts:47-62 | The request writes exactly when nothing was learned today and the sample is non-empty. |
| WordsRoute.EveryUnseenSampleIsPossible | src/app/api/words/route.ts:55-59 | Any admissible sample of the unseen words is a reply the handler can give. |
| WordsRoute.ExhaustedCatalogServesTheRest | src/app/api/words/route.ts:55-59 | When at most two unseen words remain, all of them are served. |
| WordsRoute.WriteFailuresAreSilent | src/app/api/words/route.ts:69-74 | The response and the store calls are the same whatever writes fail: a failed insert still returns the sampled words. |
| WordsRoute.RespondRecordsServedWords | src/app/api/words/route.ts:62-73 | The ledger keeps at most one record per pair. Every written entry is the user's own, and every served word whose entry did not fail is on the ledger afterwards. |
| WordsRoute.SampleEntriesAreFresh | src/app/api/words/route.ts:57-67 | Entries built from a sample of unseen words are pairwise distinct, and none of their pairs is stored yet. |
| WordsRoute.RecordedSampleIsToday | src/app/api/words/route.ts:43-70 | After a fresh sample is recorded inside the window, the user's records of the day are exactly the new entries. |
| WordsRoute.LookupFindsRecordedSample | src/app/api/words/route.ts:48-52 | Looking up the ids of the recorded entries gives back exactly the sampled words. |
| WordsRoute.SameDayRequestsAgree | src/app/api/words/route.ts:43-70 | After a first request whose writes landed inside the window, a second request in that window changes nothing and serves the same words. |
| WordsRoute.ConcurrentRequestsKeepPairsUnique | src/app/api/words/route.ts:69-73 | Two first requests of a day that both read before either writes, with their writes applied one after the other, leave at most one record per pair, and every entry either wrote without failure is stored. |
| WordsRoute.Get | src/app/api/words/route.ts:22-33 | The handler as written, answering within the window the helper computes. The reply is 401 exactly when there is no session, and then no store call is made. Otherwise the first call reads the user's records. The catalog never changes. |
| WordsRoute.GetCorrected | src/app/api/words/route.ts:22-33 | The same handler with the window of `now`'s New York calendar day, under the same contract: 401 exactly without a session and then no store call, the user's records read first otherwise, the catalog unchanged. |
| WordsRoute.SameDayGetsAgree | src/app/api/words/route.ts:6-52 | With the corrected window: two requests at instants of the same New York day, the first recording its words on that day. The second writes nothing and serves the same words. |
| WordsRoute.AsWrittenSecondRequestSamplesAgain | src/app/api/words/route.ts:33-70 | Counterexample for the handler as written. On an empty ledger, a learner asks at 00:00:00.300 and at 00:00:00.900 EDT on 2026-03-10, and the first request records its words in between. The second request changes the store and serves a word the first did not. |
| WordsRoute.RequestAfterWindowStartSamplesAgain | src/app/api/words/route.ts:43-70 | On an empty ledger, a learner asks twice, and the second window starts after every record the first request wrote. If the catalog holds more than two words, the second request records again and serves a new word. |
| WordsRoute.FirstRequestOnEmptyLedger | src/app/api/words/route.ts:53-70 | On an empty ledger, a learner's first request serves `min(2, catalog size)` catalog words. Each served word is on the ledger afterwards. Every record is the learner's own, for a served word, with that entry's clock reading. |
| WordsRoute.FirstRequestLeavesRoom | src/app/api/words/route.ts:53-70 | After that first request on an empty ledger and a catalog of more than two words, some catalog word is still not on the learner's ledger. Every served word is on it. Every record predates any instant after the clock readings taken. |
| WordsRoute.SecondRequestSamplesAgain | src/app/api/words/route.ts:43-70 | A request whose window starts after all the learner's records, while some catalog word was never given to them, changes the store. It serves a word the ledger did not hold for the learner. |
| WordsRoute.AsWrittenGetServesYesterday | src/app/api/words/route.ts:33-52 | Counterexample for the handler as written. At noon EDT on the 2026 spring-forward day, a learner whose only record is from 23:30 EST the evening before is served that word again, and nothing is written. The corrected handler records a new word. |
| WordsRoute.GetDecidesBetweenReuseAndSample | src/app/api/words/route.ts:33-70 | Suppose a learner's single record lies in the as-written window but before the corrected one. Then the handler as written serves that record's word again and changes nothing, while the corrected handler changes the store. |
| WordsRoute.WindowDecidesBetweenReuseAndSample | src/app/api/words/route.ts:43-70 | A single record inside one window and before another: the first window reuses the record's word and writes nothing, and the second writes a further record. |
| WordsRoute.OnlyRecordInWindowIsServedAgain | src/app/api/words/route.ts:43-52 | A learner whose single record lies in the window is served exactly that record's catalog word, and the store is unchanged. |
| ImportWords.Texts | src/scripts/import-words.ts:41 | The incoming texts are the entries' `word` fields, position by position. |
| ImportWords.ExistingTexts | src/scripts/import-words.ts:42-43 | The existing-text set holds exactly the incoming texts that some stored word has. |
| ImportWords.NewEntries | src/scripts/import-words.ts:45 | The kept entries are exactly the entries whose text is not in the existing set, as a subsequence of the file (order kept). |
| ImportWords.Stamp | src/scripts/import-words.ts:56-59 | One document per kept entry, in order: the entry plus its own `createdAt` reading. |
| ImportWords.NextId | src/scripts/import-words.ts:61 | The store gives the first inserted document a fresh id, one above every id in use. |
| ImportWords.Append | src/scripts/import-words.ts:61 | `insertMany` appends one word per document, in order, with that document's entry and `createdAt`, and keeps the stored words. |
| ImportWords.Import | src/scripts/import-words.ts:26-61 | The run is rejected exactly when the file is unreadable, not an array, or empty. A rejected run makes no store call and changes nothing, "nothing new" changes nothing, and no stored word is ever removed. |
| ImportWords.KeptEntriesAreUnstored | src/scripts/import-words.ts:41-45 | Asking the store only about the file's texts loses nothing. The kept entries are the order-preserving filter of the entries whose text no stored word has. |
| ImportWords.FileDuplicatesAreKept | src/scripts/import-words.ts:45 | Entries that share a text not yet stored are all kept, as often as they occur in the file. |
| ImportWords.ImportInsertsKeptEntries | src/scripts/import-words.ts:42-61 | The run first asks for the file's texts. It ends with "nothing new" and one call exactly when nothing is kept; otherwise it inserts the stamped kept entries as one batch and reports their count. |
| ImportWords.AppendKeptStoresEveryText | src/scripts/import-words.ts:45-61 | After the kept entries are appended, every text of the file is stored, and no appended word repeats a stored text. |
| ImportWords.ImportStoresEveryText | src/scripts/import-words.ts:35-61 | After an import every text of the file is in the catalog, and nothing that was stored is imported again. |
| ImportWords.NothingKeptWhenAllStored | src/scripts/import-words.ts:45-54 | A file whose every text is stored keeps nothing. |
| ImportWords.ImportTwiceAddsNothing | src/scripts/import-words.ts:41-54 | Importing the same file again ends with "nothing new" and leaves the catalog as it was. |
| ImportWords.ImportKeepsIdsUnique | src/scripts/import-words.ts:61 | Inserted words get ids no stored word has, so catalog ids stay unique. |
| Vocab.DistinctWordsDistinctIds | src/lib/interfaces.ts:5-15 | With unique catalog ids, two different catalog words never share an id. |

## Left out

- The 500 path is not modelled: an exception from any store call, and the `catch` around the whole handler (src/app/api/words/route.ts:90-95). The store operations are total functions here.
- Session lookup, JWT verification and cookies are not modelled; the session's user id is a parameter.
- Sampling uniformity of `$sample` cannot be stated without probabilities. The sampler is any distinct selection of the right size, steered by a list of random numbers.
- Real IANA time-zone rules are not modelled. A zone is an abstract offset function. The process is assumed to run in UTC, so that `setHours` floors the re-parsed New York wall clock to its calendar day.
- The corrected `TodayRange` assumes what America/New_York satisfies: offsets under a day, and a calendar that never runs backwards. Zones whose clocks fall back across midnight are not covered.
- The ledger's unique (userId, wordId) index is not created anywhere in the repository. It is assumed from the comment at src/app/api/words/route.ts:72. Without it a racing insert would store a duplicate pair.
- Concurrency is modelled only as two requests that both read the ledger before either writes, with their writes applied one after the other.
- The `_id` of a ledger record plays no part, and object ids are natural numbers. `toString()` on ids in the history map is the identity.
- The JSON shape of import entries is not validated, matching the script, and file reading and parsing are collapsed into `ImportFile`. A query or insert failure during import (exit code 1, src/scripts/import-words.ts:63-65) is not modelled.
- Console output is not modelled: the skip count, the "inserted N of M" message, and the final `disconnect`.
- ImportWords.NextId: the store only promises that the ids it assigns are fresh. The model picks one above the largest id in use, a concrete choice that the script does not depend on.
- Store.FindByIds: the result order is fixed to collection order, whereas a `find` without a sort promises none. No property here depends on that order.
- The `MongoManager` singleton and connection handling are not modelled.
- The descending sort of the history in the page component is presentation and is not modelled.
- The UI, speech synthesis, the sentence-check endpoint, user creation and authentication routes are outside the engine.

## Findings

| source | as written | input that shows it | evidently intended | confidence | as-written member | corrected member |
|---|---|---|---|---|---|---|
| src/app/api/words/route.ts:15-18 | Both bounds are shifted back by the offset measured at `now`, although midnight may fall under a different offset | A request at 2026-03-08 12:00 EDT gets a window that opens at 23:00 EST of March 7, so a word learned at 23:30 EST the evening before counts as today's | The window holds exactly the instants of `now`'s New York calendar day | high, not executed | DayWindow.AsWrittenWindowOpensAnHourEarly | DayWindow.TodayRange |
| src/app/api/words/route.ts:8-15 | `toLocaleString` drops milliseconds, so `offsetMs` also absorbs `now`'s milliseconds and the window is shifted by them | A request at 12:00:00.500 EDT gets a window starting at 00:00:00.500, so a word learned at 00:00:00.200 the same day counts as an earlier day's | The window starts at the first millisecond of the day | high, not executed | DayWindow.AsWrittenWindowDropsFirstMilliseconds | DayWindow.TodayRange |
| src/app/api/words/route.ts:33 | The handler answers within the as-written window, whose start moves to the request's own millisecond | On an empty ledger, a learner asks at 00:00:00.300 EDT on 2026-03-10 and again at 00:00:00.900, after the first request has recorded its words. The second window starts at 00:00:00.900, so those records count as an earlier day's. The second request records again and serves a word the first did not | Requests on one New York day serve the same words and record only once | high, not executed | WordsRoute.AsWrittenSecondRequestSamplesAgain | WordsRoute.SameDayGetsAgree |
| src/app/api/words/route.ts:33 | On the spring-forward day the as-written window opens at 23:00 EST of the previous evening | A learner whose only record is from 23:30 EST on 2026-03-07 asks at noon EDT on March 8. That record counts as today's, so the old word is served again and no new word is recorded | A new New York day brings new words | high, not executed | WordsRoute.AsWrittenGetServesYesterday | WordsRoute.RecordsSplitByNewYorkDay |

=== FILE: day_window.dfy ===
/** The calendar-day window of the words endpoint: the first and the last
    millisecond of "today" in the America/New_York zone, as absolute
    instants.

    A zone is modelled as the offset (local wall clock minus UTC, in
    milliseconds) in force at each instant. The server process is taken to
    run in UTC, so that `setHours` on the re-parsed date floors the
    New York wall-clock reading to its calendar day.

    Two versions are given. `TodayRangeAsWritten` follows the repository's
    helper step by step; it measures the offset once, at `now`, and that
    measurement also absorbs the milliseconds that `toLocaleString` drops.
    `TodayRange` is the window the helper is meant to compute (every
    instant whose New York calendar day is today's, and nothing else).
    `WordsRoute.GetCorrected` uses it; `WordsRoute.Get`, the handler as
    written, uses `TodayRangeAsWritten`. */
module DayWindow {
  import opened Vocab

  const DayMs: int := 86_400_000

  /** `setHours(23, 59, 59, 999)` lies this many milliseconds after
      `setHours(0, 0, 0, 0)` on the same (UTC-frame) date. */
  const LastMsOfDay: int := 86_399_999

  /** An inclusive interval of instants: `learnedAt >= start && learnedAt <= end`. */
  datatype Window = Window(start: Millis, end: Millis)

  predicate Contains(w: Window, t: Millis) {
    w.start <= t <= w.end
  }

  /** A time zone: the offset from UTC in force at each instant. */
  type Zone = Millis -> int

  /** The calendar day (days since the epoch) of instant `t` on the wall
      clocks of `zone`. */
  function LocalDay(zone: Zone, t: Millis): int {
    (t + zone(t)) / DayMs
  }

  /** What America/New_York satisfies: offsets stay under a day, and its
      calendar never runs backwards (its clock changes happen away from
      midnight). Not every zone does: one whose clocks fall back across
      midnight revisits the previous day. */
  ghost predicate WellFormedZone(zone: Zone) {
    && (forall t :: -DayMs < zone(t) < DayMs)
    && (forall t1, t2 :: t1 <= t2 ==> LocalDay(zone, t1) <= LocalDay(zone, t2))
  }

  /** `setHours(0, 0, 0, 0)` on a date whose wall clock reads `local` in a
      UTC process: the start of that calendar day. */
  function DayFloor(local: int): (r: int)
    ensures r <= local < r + DayMs
    ensures r % DayMs == 0
  {
    local - local % DayMs
  }

  /** `toLocaleString` prints whole seconds, so the re-parsed date loses the
      milliseconds of the reading. */
  function WholeSeconds(t: int): (r: int)
    ensures r <= t < r + 1000
    ensures r % 1000 == 0
  {
    t - t % 1000
  }

  /** The repository's `getTodayRangeET`, for the instant `now`:
      `et` is the New York wall clock at `now` re-read as a UTC date (whole
      seconds only), `offsetMs = et - now`, and both day boundaries of
      `et` are shifted back by that one offset. */
  function TodayRangeAsWritten(now: Millis, zone: Zone): (w: Window)
    ensures Contains(w, now)
    ensures w.end - w.start == LastMsOfDay
    ensures (w.start + (WholeSeconds(now + zone(now)) - now)) % DayMs == 0
  {
    var et := WholeSeconds(now + zone(now));
    var offsetMs := et - now;
    Window(DayFloor(et) - offsetMs, DayFloor(et) + LastMsOfDay - offsetMs)
  }

  /** The as-written window is one calendar day of a clock that runs at a
      fixed distance from UTC: the offset measured at `now`, less the
      milliseconds of `now` that were dropped. It is New York's day only
      when that one measurement holds for the whole day. */
  lemma AsWrittenWindowIsFixedOffsetDay(now: Millis, zone: Zone, t: Millis)
    ensures var offsetMs := WholeSeconds(now + zone(now)) - now;
      Contains(TodayRangeAsWritten(now, zone), t) <==> (t + offsetMs) / DayMs == (now + offsetMs) / DayMs
  {
    var et := WholeSeconds(now + zone(now));
    var offsetMs := et - now;
    var floor := DayFloor(et);
    assert floor / DayMs == et / DayMs;
    if floor <= t + offsetMs < floor + DayMs {
      assert (t + offsetMs) / DayMs == floor / DayMs;
    } else if t + offsetMs < floor {
      assert (t + offsetMs) / DayMs < floor / DayMs;
    } else {
      assert (t + offsetMs) / DayMs > floor / DayMs;
    }
  }

  /** The first instant of calendar day `d`, found by bisection between an
      instant on an earlier day (`lo`) and one on day `d` or later (`hi`). */
  function FirstInstantOfDay(zone: Zone, d: int, lo: Millis, hi: Millis): (r: Millis)
    requires lo < hi && LocalDay(zone, lo) < d <= LocalDay(zone, hi)
    ensures lo < r <= hi
    ensures LocalDay(zone, r - 1) < d <= LocalDay(zone, r)
    decreases hi - lo
  {
    if hi - lo == 1 then hi
    else
      var mid := lo + (hi - lo) / 2;
      if d <= LocalDay(zone, mid) then FirstInstantOfDay(zone, d, lo, mid)
      else FirstInstantOfDay(zone, d, mid, hi)
  }

  /** On a zone whose calendar never runs backwards, the boundary found by
      bisection separates the earlier days from day `d` onwards. */
  lemma FirstInstantSplits(zone: Zone, d: int, first: Millis, t: Millis)
    requires WellFormedZone(zone)
    requires LocalDay(zone, first - 1) < d <= LocalDay(zone, first)
    ensures t < first <==> LocalDay(zone, t) < d
  {
    if t < first {
      assert LocalDay(zone, t) <= LocalDay(zone, first - 1);
    } else {
      assert LocalDay(zone, first) <= LocalDay(zone, t);
    }
  }

  /** The window `getTodayRangeET` is meant to return: from the first to the
      last instant whose New York calendar day is that of `now`. */
  function TodayRange(now: Millis, zone: Zone): (w: Window)
    requires WellFormedZone(zone)
    ensures Contains(w, now)
    ensures forall t :: Contains(w, t) <==> LocalDay(zone, t) == LocalDay(zone, now)
  {
    var d := LocalDay(zone, now);
    var lo := d * DayMs - DayMs;
    var hi := (d + 1) * DayMs + DayMs;
    assert LocalDay(zone, lo) < d;
    assert d + 1 <= LocalDay(zone, hi);
    var start := FirstInstantOfDay(zone, d, lo, now);
    var next := FirstInstantOfDay(zone, d + 1, now, hi);
    assert forall t :: Contains(Window(start, next - 1), t) <==> LocalDay(zone, t) == d by {
      forall t ensures Contains(Window(start, next - 1), t) <==> LocalDay(zone, t) == d {
        FirstInstantSplits(zone, d, start, t);
        FirstInstantSplits(zone, d + 1, next, t);
      }
    }
    Window(start, next - 1)
  }

  /** Two requests on the same New York day see the same window. */
  lemma {:induction false} SameDaySameWindow(zone: Zone, now1: Millis, now2: Millis)
    requires WellFormedZone(zone)
    requires LocalDay(zone, now1) == LocalDay(zone, now2)
    ensures TodayRange(now1, zone) == TodayRange(now2, zone)
  {
    var w1 := TodayRange(now1, zone);
    var w2 := TodayRange(now2, zone);
    assert Contains(w1, w1.start) && Contains(w1, w1.end);
    assert Contains(w2, w2.start) && Contains(w2, w2.end);
  }

  /** An instant of an earlier New York day lies before today's window, one
      of a later day after it: the window never splits a day. */
  lemma {:induction false} OtherDaysOutsideWindow(zone: Zone, now: Millis, t: Millis)
    requires WellFormedZone(zone)
    ensures LocalDay(zone, t) < LocalDay(zone, now) ==> t < TodayRange(now, zone).start
    ensures LocalDay(zone, t) > LocalDay(zone, now) ==> t > TodayRange(now, zone).end
  {
    var w := TodayRange(now, zone);
    assert Contains(w, w.start) && Contains(w, w.end);
    if w.start <= t {
      assert LocalDay(zone, w.start) <= LocalDay(zone, t);
    }
    if t <= w.end {
      assert LocalDay(zone, t) <= LocalDay(zone, w.end);
    }
  }

  // America/New_York around the 2026 spring-forward change: EST (UTC-5)
  // until 2026-03-08 02:00 local time, EDT (UTC-4) from then on.
  const Est: int := -18_000_000
  const Edt: int := -14_400_000
  const SpringForward2026: Millis := 1_772_953_200_000

  function NewYorkMarch2026(t: Millis): int {
    if t < SpringForward2026 then Est else Edt
  }

  lemma NewYorkMarch2026IsWellFormed()
    ensures WellFormedZone(NewYorkMarch2026)
  {
    forall t1, t2 | t1 <= t2 ensures LocalDay(NewYorkMarch2026, t1) <= LocalDay(NewYorkMarch2026, t2) {
      assert t1 + NewYorkMarch2026(t1) <= t2 + NewYorkMarch2026(t2);
    }
  }

  /** On the day of the change, a request at noon EDT (2026-03-08 16:00 UTC)
      gets a window that already holds 23:30 EST of the previous evening
      (2026-03-08 04:30 UTC): the offset of the afternoon is applied to
      the morning's midnight. */
  lemma AsWrittenWindowOpensAnHourEarly()
    ensures var zone := NewYorkMarch2026;
      var noon := 1_772_985_600_000;
      var lastEvening := 1_772_944_200_000;
      && Contains(TodayRangeAsWritten(noon, zone), lastEvening)
      && LocalDay(zone, lastEvening) < LocalDay(zone, noon)
      && !Contains(TodayRange(noon, zone), lastEvening)
      && lastEvening < TodayRange(noon, zone).start
  {
    NewYorkMarch2026IsWellFormed();
    var noon := 1_772_985_600_000;
    var lastEvening := 1_772_944_200_000;
    assert NewYorkMarch2026(noon) == Edt && NewYorkMarch2026(lastEvening) == Est;
    assert WholeSeconds(noon + Edt) == 1_772_971_200_000 by {
      assert (noon + Edt) % 1000 == 0;
    }
    assert DayFloor(1_772_971_200_000) == 1_772_928_000_000 by {
      assert 1_772_971_200_000 % DayMs == 43_200_000;
    }
    assert TodayRangeAsWritten(noon, NewYorkMarch2026).start == 1_772_942_400_000;
    assert LocalDay(NewYorkMarch2026, lastEvening) == 20519 by {
      assert lastEvening + Est == 20519 * DayMs + 84_600_000;
    }
    assert LocalDay(NewYorkMarch2026, noon) == 20520 by {
      assert noon + Edt == 20520 * DayMs + 43_200_000;
    }
  }

  /** Two days later, a request at 12:00:00.500 EDT gets a window that starts
      at 00:00:00.500, so a word learned at 00:00:00.200 the same day counts
      as learned before today. */
  lemma AsWrittenWindowDropsFirstMilliseconds()
    ensures var zone := NewYorkMarch2026;
      var now := 1_773_158_400_500;
      var justAfterMidnight := 1_773_115_200_200;
      && TodayRangeAsWritten(now, zone).start > justAfterMidnight
      && LocalDay(zone, justAfterMidnight) == LocalDay(zone, now)
      && Contains(TodayRange(now, zone), justAfterMidnight)
  {
    NewYorkMarch2026IsWellFormed();
    var now := 1_773_158_400_500;
    var justAfterMidnight := 1_773_115_200_200;
    assert NewYorkMarch2026(now) == Edt && NewYorkMarch2026(justAfterMidnight) == Edt;
    assert WholeSeconds(now + Edt) == 1_773_144_000_000 by {
      assert (now + Edt) % 1000 == 500;
    }
    assert DayFloor(1_773_144_000_000) == 1_773_100_800_000 by {
      assert 1_773_144_000_000 % DayMs == 43_200_000;
    }
    assert TodayRangeAsWritten(now, NewYorkMarch2026).start == 1_773_115_200_500;
    assert LocalDay(NewYorkMarch2026, justAfterMidnight) == 20522 by {
      assert justAfterMidnight + Edt == 20522 * DayMs + 200;
    }
    assert LocalDay(NewYorkMarch2026, now) == 20522 by {
      assert now + Edt == 20522 * DayMs + 43_200_500;
    }
  }

  /** Just after midnight EDT on 2026-03-10: the as-written window of a
      request at 00:00:00.900 starts at that very instant, although an
      instant 600 ms earlier lies on the same New York day. */
  lemma AsWrittenWindowStartsAtRequest()
    ensures var zone := NewYorkMarch2026;
      var now1 := 1_773_115_200_300;
      var now2 := 1_773_115_200_900;
      && TodayRangeAsWritten(now2, zone).start == now2
      && LocalDay(zone, now1) == LocalDay(zone, now2)
      && forall t :: now1 <= t <= now2 ==> LocalDay(zone, t) == LocalDay(zone, now1)
  {
    var now1 := 1_773_115_200_300;
    var now2 := 1_773_115_200_900;
    NewYorkMarch2026IsWellFormed();
    assert LocalDay(NewYorkMarch2026, now1) == 20522 by {
      assert now1 + Edt == 20522 * DayMs + 300;
    }
    assert LocalDay(NewYorkMarch2026, now2) == 20522 by {
      assert now2 + Edt == 20522 * DayMs + 900;
    }
    assert WholeSeconds(now2 + Edt) == 20522 * DayMs by {
      assert (now2 + Edt) % 1000 == 900;
    }
    assert DayFloor(20522 * DayMs) == 20522 * DayMs;
  }
}

=== FILE: import_words.dfy ===
/** The catalog import script: read a JSON array of word entries, drop
    those whose `word` text is already stored, and insert the rest with a
    creation time.

    The file system, the JSON parser and the driver are outside the model:
    the parsed file is an `ImportFile`, the clock readings taken while the
    documents are built are `clock` (one per document), and the store
    assigns each inserted document an id above every id in use. */
module ImportWords {
  import opened Seqs
  import opened Vocab

  /** What reading and parsing the file produced. */
  datatype ImportFile =
    | Unreadable                       // readFileSync or JSON.parse threw
    | NotAnArray                       // parsed, but not a JSON array
    | Items(entries: seq<WordEntry>)   // a JSON array of word entries

  /** A document about to be inserted: the entry plus `createdAt`. */
  datatype NewWord = NewWord(entry: WordEntry, createdAt: Millis)

  /** One call into the store. */
  datatype ImportCall =
    | FindByText(texts: seq<string>)   // words, { word: { $in: texts } }
    | InsertWords(docs: seq<NewWord>)  // words, insertMany

  datatype Outcome =
    | Rejected            // process.exit(1) before the store is touched
    | NothingNew          // "No new words to import"
    | Inserted(count: nat)

  datatype ImportRun = ImportRun(outcome: Outcome, calls: seq<ImportCall>, catalog: seq<Word>)

  /** `rawWords.map(w => w.word)`. */
  function Texts(entries: seq<WordEntry>): (texts: seq<string>)
    ensures |texts| == |entries|
    ensures forall i :: 0 <= i < |entries| ==> texts[i] == entries[i].word
  {
    seq(|entries|, i requires 0 <= i < |entries| => entries[i].word)
  }

  /** The `word` texts of the stored words the `$in` query returns. */
  function ExistingTexts(catalog: seq<Word>, incoming: seq<string>): (existing: set<string>)
    ensures forall t :: t in existing <==> t in incoming && exists x :: x in catalog && x.entry.word == t
  {
    set x | x in catalog && x.entry.word in incoming :: x.entry.word
  }

  /** Whether some stored word has this text. */
  predicate Stored(catalog: seq<Word>, text: string) {
    exists x :: x in catalog && x.entry.word == text
  }

  /** `rawWords.filter(w => !existingWords.has(w.word))`. */
  function NewEntries(entries: seq<WordEntry>, existing: set<string>): (novel: seq<WordEntry>)
    ensures forall e :: e in novel <==> e in entries && e.word !in existing
    ensures IsSubsequence(novel, entries)
  {
    var isNew := (e: WordEntry) => e.word !in existing;
    FilterIsSubsequence(entries, isNew);
    Filter(entries, isNew)
  }

  /** `newWords.map(w => ({ ...w, createdAt: new Date() }))`. */
  function Stamp(novel: seq<WordEntry>, clock: nat -> Millis): (docs: seq<NewWord>)
    ensures |docs| == |novel|
    ensures forall i :: 0 <= i < |novel| ==> docs[i].entry == novel[i] && docs[i].createdAt == clock(i)
  {
    seq(|novel|, i requires 0 <= i < |novel| => NewWord(novel[i], clock(i)))
  }

  /** A fresh id for the first inserted document: one more than the
      largest id in use (0 for an empty catalog). */
  function NextId(catalog: seq<Word>): (next: WordId)
    ensures forall x :: x in catalog ==> x.id < next
    decreases |catalog|
  {
    if catalog == [] then 0
    else
      var rest := NextId(catalog[1..]);
      assert forall x :: x in catalog ==> x == catalog[0] || x in catalog[1..];
      if catalog[0].id < rest then rest else catalog[0].id + 1
  }

  /** The catalog after `insertMany(docs)`: the documents are appended in
      order, with novel ids. */
  function Append(catalog: seq<Word>, docs: seq<NewWord>): (after: seq<Word>)
    ensures |after| == |catalog| + |docs|
    ensures after[..|catalog|] == catalog
    ensures forall i :: 0 <= i < |docs| ==>
      after[|catalog| + i].entry == docs[i].entry && after[|catalog| + i].createdAt == docs[i].createdAt
  {
    var base := NextId(catalog);
    catalog + seq(|docs|, i requires 0 <= i < |docs| => Word(base + i, docs[i].entry, docs[i].createdAt))
  }

  /** The script's `main`, from the parsed file on. */
  function Import(file: ImportFile, catalog: seq<Word>, clock: nat -> Millis): (run: ImportRun)
    ensures run.outcome.Rejected? <==> !file.Items? || file.entries == []
    ensures run.outcome.Rejected? ==> run.calls == [] && run.catalog == catalog
    ensures run.outcome.NothingNew? ==> run.catalog == catalog
    ensures |run.catalog| >= |catalog| && run.catalog[..|catalog|] == catalog
  {
    if !file.Items? || file.entries == [] then ImportRun(Rejected, [], catalog)
    else
      var incoming := Texts(file.entries);
      var existing := ExistingTexts(catalog, incoming);
      var novel := NewEntries(file.entries, existing);
      if novel == [] then ImportRun(NothingNew, [FindByText(incoming)], catalog)
      else
        var docs := Stamp(novel, clock);
        ImportRun(Inserted(|docs|), [FindByText(incoming), InsertWords(docs)], Append(catalog, docs))
  }

  /** The entries the script keeps from a well-formed file. */
  function Kept(entries: seq<WordEntry>, catalog: seq<Word>): seq<WordEntry> {
    NewEntries(entries, ExistingTexts(catalog, Texts(entries)))
  }

  /** Asking the store only about the file's texts loses nothing: an entry
      is kept exactly when no stored word, of any text, has its text. */
  lemma KeptEntriesAreUnstored(entries: seq<WordEntry>, catalog: seq<Word>)
    ensures Kept(entries, catalog) == Filter(entries, (e: WordEntry) => !Stored(catalog, e.word))
    ensures forall e :: e in Kept(entries, catalog) <==> e in entries && !Stored(catalog, e.word)
  {
    var incoming := Texts(entries);
    var existing := ExistingTexts(catalog, incoming);
    forall e | e in entries ensures (e.word !in existing) == !Stored(catalog, e.word) {
      var i :| 0 <= i < |entries| && entries[i] == e;
      assert incoming[i] == e.word;
    }
    FilterAgreeing(entries, (e: WordEntry) => e.word !in existing, (e: WordEntry) => !Stored(catalog, e.word));
  }

  /** Entries that share a text not yet stored are all kept, as often as
      they occur in the file. */
  lemma FileDuplicatesAreKept(entries: seq<WordEntry>, catalog: seq<Word>, e: WordEntry)
    requires !Stored(catalog, e.word)
    ensures multiset(Kept(entries, catalog))[e] == multiset(entries)[e]
  {
    KeptEntriesAreUnstored(entries, catalog);
    FilterCounts(entries, (x: WordEntry) => !Stored(catalog, x.word), e);
  }

  /** A file with something new is stamped and inserted as one batch, one
      document per kept entry, in file order. */
  lemma ImportInsertsKeptEntries(file: ImportFile, catalog: seq<Word>, clock: nat -> Millis)
    requires file.Items? && file.entries != []
    ensures var run := Import(file, catalog, clock);
      var kept := Kept(file.entries, catalog);
      && run.calls[0] == FindByText(Texts(file.entries))
      && (kept == [] <==> run.outcome.NothingNew?)
      && (kept == [] ==> |run.calls| == 1)
      && (kept != [] ==> run.calls == [FindByText(Texts(file.entries)), InsertWords(Stamp(kept, clock))]
                         && run.outcome == Inserted(|kept|)
                         && run.catalog == Append(catalog, Stamp(kept, clock)))
  {
  }

  /** Appending the stamped kept entries stores every text of the file,
      and every appended word has a text the catalog did not hold. */
  lemma AppendKeptStoresEveryText(entries: seq<WordEntry>, catalog: seq<Word>, clock: nat -> Millis)
    ensures var after := Append(catalog, Stamp(Kept(entries, catalog), clock));
      && (forall e :: e in entries ==> Stored(after, e.word))
      && (forall i :: |catalog| <= i < |after| ==> !Stored(catalog, after[i].entry.word))
  {
    KeptEntriesAreUnstored(entries, catalog);
    var kept := Kept(entries, catalog);
    var docs := Stamp(kept, clock);
    var after := Append(catalog, docs);
    forall e | e in entries ensures Stored(after, e.word) {
      if Stored(catalog, e.word) {
        var x :| x in catalog && x.entry.word == e.word;
        var k :| 0 <= k < |catalog| && catalog[k] == x;
        assert after[k] == x;
      } else {
        assert e in kept;
        var i :| 0 <= i < |kept| && kept[i] == e;
        assert after[|catalog| + i].entry == e;
        assert after[|catalog| + i] in after;
      }
    }
    forall i | |catalog| <= i < |after| ensures !Stored(catalog, after[i].entry.word) {
      assert after[i].entry == kept[i - |catalog|];
      assert kept[i - |catalog|] in kept;
    }
  }

  /** After an import every text of the file is in the catalog, and no
      stored word was re-imported. */
  lemma ImportStoresEveryText(file: ImportFile, catalog: seq<Word>, clock: nat -> Millis)
    requires file.Items?
    ensures var run := Import(file, catalog, clock);
      && (forall e :: e in file.entries ==> Stored(run.catalog, e.word))
      && (forall i :: |catalog| <= i < |run.catalog| ==> !Stored(catalog, run.catalog[i].entry.word))
  {
    if file.entries != [] {
      ImportInsertsKeptEntries(file, catalog, clock);
      AppendKeptStoresEveryText(file.entries, catalog, clock);
      var kept := Kept(file.entries, catalog);
      if kept == [] {
        KeptEntriesAreUnstored(file.entries, catalog);
        assert forall e :: e in file.entries ==> Stored(catalog, e.word);
      }
    }
  }

  /** A file whose every text is stored keeps nothing. */
  lemma NothingKeptWhenAllStored(entries: seq<WordEntry>, catalog: seq<Word>)
    requires forall e :: e in entries ==> Stored(catalog, e.word)
    ensures Kept(entries, catalog) == []
  {
    KeptEntriesAreUnstored(entries, catalog);
    var kept := Kept(entries, catalog);
    assert forall i :: 0 <= i < |kept| ==> kept[i] in kept;
  }

  /** Importing the same file a second time adds nothing. */
  lemma ImportTwiceAddsNothing(file: ImportFile, catalog: seq<Word>, clock1: nat -> Millis, clock2: nat -> Millis)
    requires file.Items? && file.entries != []
    ensures var first := Import(file, catalog, clock1);
      var second := Import(file, first.catalog, clock2);
      second.outcome == NothingNew && second.catalog == first.catalog
  {
    var after := Import(file, catalog, clock1).catalog;
    ImportStoresEveryText(file, catalog, clock1);
    NothingKeptWhenAllStored(file.entries, after);
    ImportInsertsKeptEntries(file, after, clock2);
  }

  /** The inserted documents get ids no stored word has, so the catalog's
      primary key stays unique. */
  lemma ImportKeepsIdsUnique(file: ImportFile, catalog: seq<Word>, clock: nat -> Millis)
    requires UniqueIds(catalog)
    ensures UniqueIds(Import(file, catalog, clock).catalog)
  {
    var run := Import(file, catalog, clock);
    if run.outcome.Inserted? {
      var base := NextId(catalog);
      var docs := Stamp(Kept(file.entries, catalog), clock);
      forall i, j | 0 <= i < j < |run.catalog| ensures run.catalog[i].id != run.catalog[j].id {
        if j >= |catalog| {
          assert run.catalog[j].id == base + (j - |catalog|);
          if i < |catalog| {
            assert run.catalog[i] in catalog;
          } else {
            assert run.catalog[i].id == base + (i - |catalog|);
          }
        }
      }
    }
  }
}

=== FILE: seqs.dfy ===
/** Generic facts about sequences used by the rest of the model: an
    order-preserving filter (JavaScript's `Array.prototype.filter`), the
    subsequence relation and element distinctness. */
module Seqs {

  /** The elements of `s` that satisfy `p`, in their original order and with
      their original multiplicities. */
  function Filter<T(==,!new)>(s: seq<T>, p: T -> bool): (r: seq<T>)
    ensures |r| <= |s|
    ensures forall x :: x in r <==> x in s && p(x)
    decreases |s|
  {
    if s == [] then []
    else (if p(s[0]) then [s[0]] else []) + Filter(s[1..], p)
  }

  /** The filter drops no copy of a kept value: each value that satisfies `p`
      occurs in the result exactly as often as in the input. */
  lemma {:induction false} FilterCounts<T(!new)>(s: seq<T>, p: T -> bool, x: T)
    ensures multiset(Filter(s, p))[x] == if p(x) then multiset(s)[x] else 0
    decreases |s|
  {
    if s != [] {
      assert s == [s[0]] + s[1..];
      FilterCounts(s[1..], p, x);
    }
  }

  /** `r` can be obtained from `s` by deleting elements, without reordering. */
  ghost predicate IsSubsequence<T>(r: seq<T>, s: seq<T>)
    decreases |s|
  {
    if r == [] then true
    else if s == [] then false
    else (r[0] == s[0] && IsSubsequence(r[1..], s[1..])) || IsSubsequence(r, s[1..])
  }

  lemma {:induction false} FilterIsSubsequence<T(!new)>(s: seq<T>, p: T -> bool)
    ensures IsSubsequence(Filter(s, p), s)
    decreases |s|
  {
    if s != [] {
      FilterIsSubsequence(s[1..], p);
      var r := Filter(s, p);
      if p(s[0]) {
        assert r[0] == s[0] && r[1..] == Filter(s[1..], p);
      } else {
        assert r == Filter(s[1..], p);
      }
    }
  }

  /** A filter whose test every element passes keeps the whole sequence. */
  lemma {:induction false} FilterKeepsAll<T(!new)>(s: seq<T>, p: T -> bool)
    requires forall x :: x in s ==> p(x)
    ensures Filter(s, p) == s
    decreases |s|
  {
    if s != [] {
      assert s[0] in s;
      assert forall x :: x in s[1..] ==> x in s;
      FilterKeepsAll(s[1..], p);
      assert s == [s[0]] + s[1..];
    }
  }

  /** Two tests that agree on every element of `s` keep the same elements. */
  lemma {:induction false} FilterAgreeing<T(!new)>(s: seq<T>, p: T -> bool, q: T -> bool)
    requires forall x :: x in s ==> p(x) == q(x)
    ensures Filter(s, p) == Filter(s, q)
    decreases |s|
  {
    if s != [] {
      assert s[0] in s;
      assert forall x :: x in s[1..] ==> x in s;
      FilterAgreeing(s[1..], p, q);
    }
  }

  /** A sequence with no members is empty. */
  lemma EmptyWithoutMembers<T>(s: seq<T>)
    ensures (forall x :: x !in s) ==> s == []
  {
    if s != [] {
      assert s[0] in s;
    }
  }

  /** No element occurs twice. */
  predicate Distinct<T(==)>(s: seq<T>) {
    forall i, j :: 0 <= i < j < |s| ==> s[i] != s[j]
  }

  /** A relation `R` holds of every ordered pair of positions `i < j`. */
  ghost predicate Pairwise<T>(s: seq<T>, R: (T, T) -> bool) {
    forall i, j :: 0 <= i < j < |s| ==> R(s[i], s[j])
  }

  /** A filter keeps the relative order of what it keeps, so a property of
      every ordered pair survives it. */
  lemma {:induction false} FilterKeepsPairwise<T(!new)>(s: seq<T>, p: T -> bool, R: (T, T) -> bool)
    requires Pairwise(s, R)
    ensures Pairwise(Filter(s, p), R)
    decreases |s|
  {
    if s != [] {
      var rest := Filter(s[1..], p);
      assert Pairwise(s[1..], R) by {
        forall i, j | 0 <= i < j < |s[1..]| ensures R(s[1..][i], s[1..][j]) {
          assert s[1..][i] == s[i + 1] && s[1..][j] == s[j + 1];
        }
      }
      FilterKeepsPairwise(s[1..], p, R);
      if p(s[0]) {
        var r := Filter(s, p);
        assert r == [s[0]] + rest;
        forall i, j | 0 <= i < j < |r| ensures R(r[i], r[j]) {
          if i == 0 {
            assert r[j] == rest[j - 1];
            assert rest[j - 1] in s[1..];
            var k :| 0 <= k < |s[1..]| && s[1..][k] == rest[j - 1];
            assert s[k + 1] == r[j];
          } else {
            assert r[i] == rest[i - 1] && r[j] == rest[j - 1];
          }
        }
      }
    }
  }

  lemma {:induction false} FilterKeepsDistinct<T(!new)>(s: seq<T>, p: T -> bool)
    requires Distinct(s)
    ensures Distinct(Filter(s, p))
  {
    var R := (a: T, b: T) => a != b;
    assert Pairwise(s, R);
    FilterKeepsPairwise(s, p, R);
    assert Pairwise(Filter(s, p), R);
  }

  lemma PrependKeepsDistinct<T>(x: T, s: seq<T>)
    requires Distinct(s) && x !in s
    ensures Distinct([x] + s)
  {
    var r := [x] + s;
    forall i, j | 0 <= i < j < |r| ensures r[i] != r[j] {
      assert r[j] == s[j - 1];
      if i > 0 {
        assert r[i] == s[i - 1];
      }
    }
  }

  lemma DistinctTail<T>(s: seq<T>)
    requires s != [] && Distinct(s)
    ensures Distinct(s[1..]) && s[0] !in s[1..]
  {
    forall i, j | 0 <= i < j < |s[1..]| ensures s[1..][i] != s[1..][j] {
      assert s[1..][i] == s[i + 1] && s[1..][j] == s[j + 1];
    }
  }

  /** A sequence without repetitions has as many elements as it has
      positions. */
  lemma {:induction false} DistinctCardinality<T>(s: seq<T>)
    requires Distinct(s)
    ensures |set x | x in s| == |s|
    decreases |s|
  {
    if s != [] {
      DistinctTail(s);
      DistinctCardinality(s[1..]);
      assert (set x | x in s) == {s[0]} + (set x | x in s[1..]);
    }
  }

  /** A sequence has no more distinct elements than positions. */
  lemma {:induction false} CardinalityAtMostLength<T>(s: seq<T>)
    ensures |set x | x in s| <= |s|
    decreases |s|
  {
    if s != [] {
      CardinalityAtMostLength(s[1..]);
      assert (set x | x in s) == {s[0]} + (set x | x in s[1..]);
    }
  }

  /** A sequence shorter than a repetition-free pool misses one of the
      pool's elements. */
  lemma ShorterMissesOne<T>(s: seq<T>, pool: seq<T>) returns (x: T)
    requires Distinct(pool) && |s| < |pool|
    ensures x in pool && x !in s
  {
    var inS := set y | y in s;
    var inPool := set y | y in pool;
    CardinalityAtMostLength(s);
    DistinctCardinality(pool);
    assert inPool <= inS + (inPool - inS);
    assert |inPool - inS| > 0;
    x :| x in inPool - inS;
  }

  /** A repetition-free selection from a repetition-free pool that is as
      long as the pool holds every element of the pool. */
  lemma FullSelectionIsPool<T>(s: seq<T>, pool: seq<T>)
    requires Distinct(s) && Distinct(pool)
    requires forall x :: x in s ==> x in pool
    requires |s| == |pool|
    ensures forall x :: x in pool ==> x in s
  {
    var inS := set x | x in s;
    var inPool := set x | x in pool;
    DistinctCardinality(s);
    DistinctCardinality(pool);
    assert inS <= inPool;
    assert inPool == inS + (inPool - inS);
    assert inS * (inPool - inS) == {};
    assert |inPool - inS| == 0;
    forall x | x in pool ensures x in s {
      assert x in inPool;
    }
  }
}

=== FILE: store.dfy ===
/** The three store operations the word engine relies on, stated as pure
    functions over the collections' contents: find by id set, draw a random
    sample from a filtered collection, and an unordered, duplicate-tolerant
    batch insert into the ledger. */
module Store {
  import opened Seqs
  import opened Vocab

  function Min(a: int, b: int): int {
    if a <= b then a else b
  }

  /** `find({ _id: { $in: ids } })` on the `words` collection: the stored
      words whose id is requested. A `find` without a sort promises no
      order; the model fixes collection order. */
  function FindByIds(catalog: seq<Word>, ids: set<WordId>): (r: seq<Word>)
    ensures forall w :: w in r <==> w in catalog && w.id in ids
    ensures IsSubsequence(r, catalog)
  {
    var wanted := (w: Word) => w.id in ids;
    FilterIsSubsequence(catalog, wanted);
    Filter(catalog, wanted)
  }

  /** What `$sample: { size: n }` may return from a pool of matching
      documents (distinct, since every document has its own `_id`): `n`
      distinct documents of the pool, or the whole pool when it has fewer
      than `n`. Uniformity is not expressible here. */
  ghost predicate IsSample<T>(s: seq<T>, pool: seq<T>, n: nat) {
    && Distinct(s)
    && (forall x :: x in s ==> x in pool)
    && |s| == Min(n, |pool|)
  }

  /** The pool without its `i`-th document. */
  function RemoveAt<T>(pool: seq<T>, i: nat): (rest: seq<T>)
    requires i < |pool|
    ensures |rest| == |pool| - 1
    ensures forall x :: x in rest ==> x in pool
    ensures forall x :: x in pool && x != pool[i] ==> x in rest
    ensures Distinct(pool) ==> Distinct(rest) && pool[i] !in rest
  {
    var rest := pool[..i] + pool[i + 1..];
    assert pool == pool[..i] + [pool[i]] + pool[i + 1..];
    assert forall a :: 0 <= a < |rest| ==> rest[a] == pool[if a < i then a else a + 1];
    rest
  }

  /** The pool position a random number selects (clamped to the pool). */
  function Pick(k: nat, size: nat): (i: nat)
    requires 0 < size
    ensures i < size
    ensures k < size ==> i == k
  {
    if k < size then k else size - 1
  }

  /** A concrete sampler: draws `n` times without replacement, each draw
      steered by the next number of `rand` (the randomness the database
      would supply). */
  function Draw<T(==)>(pool: seq<T>, n: nat, rand: seq<nat>): (r: seq<T>)
    requires Distinct(pool)
    ensures IsSample(r, pool, n)
    decreases n
  {
    if n == 0 || pool == [] then []
    else
      var i := Pick(if rand == [] then 0 else rand[0], |pool|);
      var tail := Draw(RemoveAt(pool, i), n - 1, if rand == [] then [] else rand[1..]);
      PrependKeepsDistinct(pool[i], tail);
      [pool[i]] + tail
  }

  lemma DrawStep<T>(pool: seq<T>, n: nat, rand: seq<nat>, i: nat)
    requires Distinct(pool)
    requires 0 < n && i < |pool| && rand != [] && rand[0] == i
    ensures Draw(pool, n, rand) == [pool[i]] + Draw(RemoveAt(pool, i), n - 1, rand[1..])
  {
  }

  /** What is left of a sample after its first document is a sample of the
      pool without that document. */
  lemma SampleTail<T>(pool: seq<T>, n: nat, s: seq<T>, i: nat)
    requires Distinct(pool) && IsSample(s, pool, n)
    requires 0 < n && s != [] && i < |pool| && pool[i] == s[0]
    ensures IsSample(s[1..], RemoveAt(pool, i), n - 1)
  {
    var rest := RemoveAt(pool, i);
    DistinctTail(s);
    forall x | x in s[1..] ensures x in rest {
      assert x in s && x != s[0];
    }
  }

  /** Every admissible sample is one `Draw` can produce: the concrete sampler
      loses none of the database's freedom. */
  lemma {:induction false} DrawReachesEverySample<T>(pool: seq<T>, n: nat, s: seq<T>) returns (rand: seq<nat>)
    requires Distinct(pool) && IsSample(s, pool, n)
    ensures Draw(pool, n, rand) == s
    decreases n
  {
    if n == 0 || pool == [] {
      rand := [];
    } else {
      assert s[0] in pool;
      var i :| 0 <= i < |pool| && pool[i] == s[0];
      var rest := RemoveAt(pool, i);
      SampleTail(pool, n, s, i);
      var rand' := DrawReachesEverySample(rest, n - 1, s[1..]);
      rand := [i] + rand';
      assert rand[0] == i && rand[1..] == rand';
      DrawStep(pool, n, rand, i);
      assert s == [s[0]] + s[1..];
    }
  }

  /** `insertMany(entries, { ordered: false })` against the ledger's unique
      (userId, wordId) index: every entry is attempted; one whose pair is
      already stored (possibly by an earlier entry of the same batch) fails
      with a duplicate-key error, one in `failed` fails for any other reason,
      and neither failure stops the remaining entries. */
  function InsertUnordered(ledger: seq<LearnedWord>, entries: seq<LearnedWord>, failed: set<LearnedWord>): (r: seq<LearnedWord>)
    ensures |ledger| <= |r| && r[..|ledger|] == ledger
    decreases |entries|
  {
    if entries == [] then ledger
    else
      var e := entries[0];
      var next := if HasPair(ledger, e.userId, e.wordId) || e in failed then ledger else ledger + [e];
      InsertUnordered(next, entries[1..], failed)
  }

  /** Everything the insert appends is an entry of the batch whose write did
      not fail. */
  lemma {:induction false} InsertAddsOnlyBatchEntries(ledger: seq<LearnedWord>, entries: seq<LearnedWord>, failed: set<LearnedWord>)
    ensures var r := InsertUnordered(ledger, entries, failed);
      forall i :: |ledger| <= i < |r| ==> r[i] in entries && r[i] !in failed
    decreases |entries|
  {
    if entries != [] {
      var e := entries[0];
      var next := if HasPair(ledger, e.userId, e.wordId) || e in failed then ledger else ledger + [e];
      InsertAddsOnlyBatchEntries(next, entries[1..], failed);
      InsertStep(ledger, entries, failed);
      var r := InsertUnordered(next, entries[1..], failed);
      forall i | |ledger| <= i < |r| ensures r[i] in entries && r[i] !in failed {
        if i >= |next| {
          assert r[i] in entries[1..];
          assert entries == [e] + entries[1..];
        } else {
          assert r[i] == next[i] == e;
        }
      }
    }
  }

  lemma InsertStep(ledger: seq<LearnedWord>, entries: seq<LearnedWord>, failed: set<LearnedWord>)
    requires entries != []
    ensures InsertUnordered(ledger, entries, failed) ==
      InsertUnordered(
        if HasPair(ledger, entries[0].userId, entries[0].wordId) || entries[0] in failed then ledger else ledger + [entries[0]],
        entries[1..], failed)
  {
  }

  /** A pair stays stored once the ledger grows. */
  lemma HasPairExtends(ledger: seq<LearnedWord>, longer: seq<LearnedWord>, u: UserId, w: WordId)
    requires |ledger| <= |longer| && longer[..|ledger|] == ledger
    requires HasPair(ledger, u, w)
    ensures HasPair(longer, u, w)
  {
    var k :| 0 <= k < |ledger| && ledger[k].userId == u && ledger[k].wordId == w;
    assert longer[k] == ledger[k];
  }

  /** After the insert, every entry that did not fail for a reason other
      than a duplicate key has its pair stored: either it was written, or an
      earlier record (from this batch or from a racing request) holds it. */
  lemma {:induction false} InsertStoresEveryPair(ledger: seq<LearnedWord>, entries: seq<LearnedWord>, failed: set<LearnedWord>, e: LearnedWord)
    requires e in entries && e !in failed
    ensures HasPair(InsertUnordered(ledger, entries, failed), e.userId, e.wordId)
    decreases |entries|
  {
    var e0 := entries[0];
    var next := if HasPair(ledger, e0.userId, e0.wordId) || e0 in failed then ledger else ledger + [e0];
    var r := InsertUnordered(next, entries[1..], failed);
    assert r == InsertUnordered(ledger, entries, failed);
    if e == e0 {
      if !HasPair(ledger, e0.userId, e0.wordId) {
        assert next[|ledger|] == e0;
      }
      assert HasPair(next, e.userId, e.wordId);
      HasPairExtends(next, r, e.userId, e.wordId);
    } else {
      assert e in entries[1..];
      InsertStoresEveryPair(next, entries[1..], failed, e);
    }
  }

  /** The insert never creates a second record for a stored pair, so the
      uniqueness constraint survives it. */
  lemma {:induction false} InsertKeepsUniquePairs(ledger: seq<LearnedWord>, entries: seq<LearnedWord>, failed: set<LearnedWord>)
    requires UniquePairs(ledger)
    ensures UniquePairs(InsertUnordered(ledger, entries, failed))
    decreases |entries|
  {
    if entries != [] {
      var e := entries[0];
      var next := if HasPair(ledger, e.userId, e.wordId) || e in failed then ledger else ledger + [e];
      if next != ledger {
        assert !HasPair(ledger, e.userId, e.wordId);
      }
      assert UniquePairs(next);
      InsertKeepsUniquePairs(next, entries[1..], failed);
    }
  }

  /** Writing an entry whose pair is not stored yet changes the ledger. */
  lemma InsertOfUnstoredPairGrows(ledger: seq<LearnedWord>, entries: seq<LearnedWord>, failed: set<LearnedWord>, e: LearnedWord)
    requires e in entries && e !in failed && !HasPair(ledger, e.userId, e.wordId)
    ensures InsertUnordered(ledger, entries, failed) != ledger
  {
    InsertStoresEveryPair(ledger, entries, failed, e);
  }

  lemma HasPairAppend(ledger: seq<LearnedWord>, e: LearnedWord, u: UserId, w: WordId)
    ensures HasPair(ledger + [e], u, w) <==> HasPair(ledger, u, w) || (e.userId == u && e.wordId == w)
  {
    var l := ledger + [e];
    if HasPair(l, u, w) {
      var k :| 0 <= k < |l| && l[k].userId == u && l[k].wordId == w;
      if k < |ledger| {
        assert l[k] == ledger[k];
      }
    }
    if HasPair(ledger, u, w) {
      var k :| 0 <= k < |ledger| && ledger[k].userId == u && ledger[k].wordId == w;
      assert l[k] == ledger[k];
    }
    if e.userId == u && e.wordId == w {
      assert l[|ledger|] == e;
    }
  }

  lemma UniquePairsTail(entries: seq<LearnedWord>)
    requires entries != [] && UniquePairs(entries)
    ensures UniquePairs(entries[1..])
  {
    var tail := entries[1..];
    forall a, b | 0 <= a < b < |tail|
      ensures tail[a].userId != tail[b].userId || tail[a].wordId != tail[b].wordId
    {
      assert tail[a] == entries[a + 1] && tail[b] == entries[b + 1];
    }
  }

  /** Writing the first entry of a fresh, pairwise distinct batch leaves the
      rest of the batch fresh. */
  lemma FreshAfterFirst(ledger: seq<LearnedWord>, entries: seq<LearnedWord>)
    requires entries != [] && UniquePairs(entries)
    requires forall e :: e in entries ==> !HasPair(ledger, e.userId, e.wordId)
    ensures forall x :: x in entries[1..] ==> !HasPair(ledger + [entries[0]], x.userId, x.wordId)
  {
    var e := entries[0];
    forall x | x in entries[1..] ensures !HasPair(ledger + [e], x.userId, x.wordId) {
      var k :| 0 <= k < |entries[1..]| && entries[1..][k] == x;
      assert entries[k + 1] == x;
      assert x.userId != e.userId || x.wordId != e.wordId;
      HasPairAppend(ledger, e, x.userId, x.wordId);
    }
  }

  lemma InsertFreshStep(ledger: seq<LearnedWord>, entries: seq<LearnedWord>)
    requires entries != [] && !HasPair(ledger, entries[0].userId, entries[0].wordId)
    ensures InsertUnordered(ledger, entries, {}) == InsertUnordered(ledger + [entries[0]], entries[1..], {})
  {
    InsertStep(ledger, entries, {});
  }

  lemma AppendFirst<T>(ledger: seq<T>, entries: seq<T>)
    requires entries != []
    ensures ledger + [entries[0]] + entries[1..] == ledger + entries
  {
    assert entries == [entries[0]] + entries[1..];
  }

  /** When no entry's pair is stored yet, the entries are pairwise distinct and
      no write fails, the insert appends exactly the batch, in order. */
  lemma {:induction false} InsertFreshBatch(ledger: seq<LearnedWord>, entries: seq<LearnedWord>)
    requires UniquePairs(entries)
    requires forall e :: e in entries ==> !HasPair(ledger, e.userId, e.wordId)
    ensures InsertUnordered(ledger, entries, {}) == ledger + entries
    decreases |entries|
  {
    if entries != [] {
      assert entries[0] in entries;
      InsertFreshStep(ledger, entries);
      FreshAfterFirst(ledger, entries);
      UniquePairsTail(entries);
      InsertFreshBatch(ledger + [entries[0]], entries[1..]);
      AppendFirst(ledger, entries);
    }
  }
}

=== FILE: vocab.dfy ===
/** The records the word engine works on: catalog words and the per-learner
    "learned word" ledger, as declared by the repository's interfaces file.
    Database object ids become natural numbers and dates become integer
    milliseconds since the Unix epoch. */
module Vocab {

  /** The `_id` of a document in the `words` collection. */
  type WordId = nat

  /** The user id carried by a session. */
  type UserId = nat

  /** A JavaScript `Date`, as its `getTime()` value. */
  type Millis = int

  datatype Option<T> = None | Some(value: T)

  /** One translation per supported language code: en, ru, kk. */
  datatype Translations = Translations(en: string, ru: string, kk: string)

  /** The body of a word, as it appears in an import file (a `Word` without
      `_id` and `createdAt`). */
  datatype WordEntry = WordEntry(
    word: string,
    definition: string,
    pronunciation: string,
    examples: seq<string>,
    translations: Translations)

  /** A document of the `words` collection. */
  datatype Word = Word(id: WordId, entry: WordEntry, createdAt: Millis)

  /** A document of the `learned_words` collection: `userId` was shown
      `wordId` at `learnedAt`. The document's own `_id` plays no part. */
  datatype LearnedWord = LearnedWord(userId: UserId, wordId: WordId, learnedAt: Millis)

  /** Catalog ids are primary keys: no two words share one. */
  predicate UniqueIds(words: seq<Word>) {
    forall i, j :: 0 <= i < j < |words| ==> words[i].id != words[j].id
  }

  /** The ledger's uniqueness constraint: at most one record per
      (userId, wordId) pair. */
  predicate UniquePairs(ledger: seq<LearnedWord>) {
    forall i, j :: 0 <= i < j < |ledger| ==>
      ledger[i].userId != ledger[j].userId || ledger[i].wordId != ledger[j].wordId
  }

  /** The ledger already holds a record for this pair. */
  predicate HasPair(ledger: seq<LearnedWord>, user: UserId, word: WordId) {
    exists i :: 0 <= i < |ledger| && ledger[i].userId == user && ledger[i].wordId == word
  }

  /** The word ids a list of records mentions (`records.map(lw => lw.wordId)`,
      read as the operand of `$in` / `$nin`). */
  function WordIds(records: seq<LearnedWord>): set<WordId> {
    set r | r in records :: r.wordId
  }

  /** Distinct catalog words carry distinct ids. */
  lemma DistinctWordsDistinctIds(words: seq<Word>)
    requires UniqueIds(words)
    ensures forall a, b :: a in words && b in words && a != b ==> a.id != b.id
  {
    forall a, b | a in words && b in words && a != b ensures a.id != b.id {
      var i :| 0 <= i < |words| && words[i] == a;
      var j :| 0 <= j < |words| && words[j] == b;
      if i < j {
        assert words[i].id != words[j].id;
      } else {
        assert words[j].id != words[i].id;
      }
    }
  }
}

=== FILE: words_route.dfy ===
/** The `GET /api/words` handler: the words of the current day window for
    the session's user, and the words the user learned before that window.

    The database is the pair of collections the handler touches. What the
    handler cannot see is passed in: the random numbers behind `$sample`
    (`rand`), the clock readings taken when the ledger entries are built
    (`clock`, one per entry), and the entries whose write fails for a reason
    other than a duplicate key (`failed`). The reply records the store calls
    in the order the handler makes them. */
module WordsRoute {
  import opened Seqs
  import opened Vocab
  import opened DayWindow
  import opened Store

  /** Words handed out on a fresh day (`$sample: { size: 2 }`). */
  const DailyCount: nat := 2

  /** The `words` and `learned_words` collections. */
  datatype Db = Db(words: seq<Word>, learned: seq<LearnedWord>)

  /** A word of the history, with the time it was learned. */
  datatype HistoryItem = HistoryItem(word: Word, learnedAt: Millis)

  datatype Response =
    | Unauthorized                                            // status 401
    | Words(words: seq<Word>, previousWords: seq<HistoryItem>) // status 200

  /** One call into the store. */
  datatype Call =
    | FindLearned(user: UserId)                         // learned_words, { userId }
    | FindWords(ids: set<WordId>)                       // words, { _id: { $in: ids } }
    | SampleWords(excluded: set<WordId>, size: nat)     // words, $match { _id: { $nin } } + $sample
    | InsertLearned(entries: seq<LearnedWord>)          // learned_words, insertMany, ordered: false

  datatype Reply = Reply(response: Response, calls: seq<Call>, db: Db)

  /** The user's ledger records, in collection order. */
  function LearnedBy(ledger: seq<LearnedWord>, user: UserId): (mine: seq<LearnedWord>)
    ensures forall r :: r in mine <==> r in ledger && r.userId == user
  {
    Filter(ledger, (r: LearnedWord) => r.userId == user)
  }

  /** The records inside the window, both ends included. */
  function LearnedToday(mine: seq<LearnedWord>, w: Window): (today: seq<LearnedWord>)
    ensures forall r :: r in today <==> r in mine && w.start <= r.learnedAt <= w.end
  {
    Filter(mine, (r: LearnedWord) => Contains(w, r.learnedAt))
  }

  /** The records strictly before the window. */
  function LearnedBefore(mine: seq<LearnedWord>, w: Window): (before: seq<LearnedWord>)
    ensures forall r :: r in before <==> r in mine && r.learnedAt < w.start
  {
    Filter(mine, (r: LearnedWord) => r.learnedAt < w.start)
  }

  /** The catalog words whose id the user has never been given. */
  function Unseen(catalog: seq<Word>, seen: set<WordId>): (pool: seq<Word>)
    ensures forall x :: x in pool <==> x in catalog && x.id !in seen
    ensures UniqueIds(catalog) ==> Distinct(pool)
    ensures (forall x :: x in catalog ==> x.id !in seen) ==> pool == catalog
  {
    var unseenId := (x: Word) => x.id !in seen;
    var pool := Filter(catalog, unseenId);
    assert UniqueIds(catalog) ==> Distinct(pool) by {
      if UniqueIds(catalog) {
        assert Distinct(catalog);
        FilterKeepsDistinct(catalog, unseenId);
      }
    }
    assert (forall x :: x in catalog ==> x.id !in seen) ==> pool == catalog by {
      if forall x :: x in catalog ==> x.id !in seen {
        FilterKeepsAll(catalog, unseenId);
      }
    }
    pool
  }

  /** One ledger entry per sampled word, for the session's user, stamped
      with the clock reading taken while building it. */
  function Entries(user: UserId, sample: seq<Word>, clock: nat -> Millis): (entries: seq<LearnedWord>)
    ensures |entries| == |sample|
    ensures forall i :: 0 <= i < |sample| ==>
      entries[i].userId == user && entries[i].wordId == sample[i].id && entries[i].learnedAt == clock(i)
  {
    seq(|sample|, i requires 0 <= i < |sample| => LearnedWord(user, sample[i].id, clock(i)))
  }

  /** `new Map(records.map(lw => [lw.wordId, lw.learnedAt]))`: one key per
      word id; when an id occurs twice the later record wins. */
  function LearnedAtMap(records: seq<LearnedWord>): (m: map<WordId, Millis>)
    ensures m.Keys == WordIds(records)
    ensures forall i :: 0 <= i < |records| && (forall j :: i < j < |records| ==> records[j].wordId != records[i].wordId) ==>
      m[records[i].wordId] == records[i].learnedAt
    decreases |records|
  {
    if records == [] then map[]
    else
      var init := records[..|records| - 1];
      var last := records[|records| - 1];
      assert records == init + [last];
      assert forall i :: 0 <= i < |init| ==> init[i] == records[i];
      LearnedAtMap(init)[last.wordId := last.learnedAt]
  }

  /** The history: the catalog words the earlier records name, each paired
      with its record's `learnedAt` through the id-keyed map. No store call
      is made when there are no earlier records. */
  function History(catalog: seq<Word>, previous: seq<LearnedWord>): (h: seq<HistoryItem>)
    ensures previous == [] ==> h == []
    ensures forall i :: 0 <= i < |h| ==> h[i].word in catalog && h[i].word.id in WordIds(previous)
  {
    if |previous| > 0 then
      var m := LearnedAtMap(previous);
      var docs := FindByIds(catalog, WordIds(previous));
      seq(|docs|, i requires 0 <= i < |docs| => HistoryItem(docs[i], m[docs[i].id]))
    else []
  }

  /** Every history item carries the `learnedAt` of an earlier record of
      its word, and every catalog word such a record names is listed. */
  lemma HistoryMatchesRecords(catalog: seq<Word>, previous: seq<LearnedWord>)
    ensures var h := History(catalog, previous);
      && (forall i :: 0 <= i < |h| ==> exists r :: r in previous && r.wordId == h[i].word.id && r.learnedAt == h[i].learnedAt)
      && (forall x :: x in catalog && x.id in WordIds(previous) ==> exists i :: 0 <= i < |h| && h[i].word == x)
  {
    var h := History(catalog, previous);
    if |previous| > 0 {
      var m := LearnedAtMap(previous);
      var docs := FindByIds(catalog, WordIds(previous));
      assert |h| == |docs|;
      forall i | 0 <= i < |h|
        ensures exists r :: r in previous && r.wordId == h[i].word.id && r.learnedAt == h[i].learnedAt
      {
        assert h[i] == HistoryItem(docs[i], m[docs[i].id]);
        LastRecordOf(previous, docs[i].id);
      }
      forall x | x in catalog && x.id in WordIds(previous)
        ensures exists i :: 0 <= i < |h| && h[i].word == x
      {
        var i :| 0 <= i < |docs| && docs[i] == x;
        assert h[i].word == x;
      }
    }
  }

  /** The map entry of a stored id is the `learnedAt` of some record with
      that id (the last one). */
  lemma LastRecordOf(records: seq<LearnedWord>, id: WordId)
    requires id in WordIds(records)
    ensures exists r :: r in records && r.wordId == id && r.learnedAt == LearnedAtMap(records)[id]
  {
    var i :| 0 <= i < |records| && records[i].wordId == id;
    while exists j :: i < j < |records| && records[j].wordId == id
      invariant 0 <= i < |records| && records[i].wordId == id
      decreases |records| - i
    {
      var j :| i < j < |records| && records[j].wordId == id;
      i := j;
    }
    assert records[i] in records;
  }

  /** The ledger entries a trace writes: the batch of its insert call, if
      it makes one. */
  function InsertedBatch(calls: seq<Call>): (entries: seq<LearnedWord>)
    decreases |calls|
  {
    if calls == [] then []
    else (if calls[0].InsertLearned? then calls[0].entries else []) + InsertedBatch(calls[1..])
  }

  /** The trace's optional history lookup; it writes nothing. */
  function HistoryLookup(previous: seq<LearnedWord>): (calls: seq<Call>)
    ensures previous == [] <==> calls == []
    ensures InsertedBatch(calls) == []
    ensures ReadOnly(calls)
  {
    if |previous| > 0 then [FindWords(WordIds(previous))] else []
  }

  lemma InsertedBatchSingle(c: Call)
    ensures InsertedBatch([c]) == if c.InsertLearned? then c.entries else []
  {
    assert [c][1..] == [];
  }

  /** A trace without an insert call. */
  predicate ReadOnly(calls: seq<Call>) {
    forall i :: 0 <= i < |calls| ==> !calls[i].InsertLearned?
  }

  lemma {:induction false} ReadOnlyWritesNothing(calls: seq<Call>)
    requires ReadOnly(calls)
    ensures InsertedBatch(calls) == []
    decreases |calls|
  {
    if calls != [] {
      assert calls[0] in calls;
      ReadOnlyWritesNothing(calls[1..]);
    }
  }

  lemma ReadOnlyAppend(a: seq<Call>, b: seq<Call>)
    requires ReadOnly(a) && ReadOnly(b)
    ensures ReadOnly(a + b)
  {
    forall i | 0 <= i < |a + b| ensures !(a + b)[i].InsertLearned? {
      if i < |a| {
        assert (a + b)[i] == a[i];
      } else {
        assert (a + b)[i] == b[i - |a|];
      }
    }
  }

  lemma {:induction false} InsertedBatchAppend(a: seq<Call>, b: seq<Call>)
    ensures InsertedBatch(a + b) == InsertedBatch(a) + InsertedBatch(b)
    decreases |a|
  {
    if a == [] {
      assert a + b == b;
    } else {
      assert (a + b)[0] == a[0] && (a + b)[1..] == a[1..] + b;
      InsertedBatchAppend(a[1..], b);
    }
  }

  /** The reply when the user already has records today: their words are
      looked up again and nothing is written. */
  function ServeAgain(user: UserId, db: Db, today: seq<LearnedWord>, history: seq<HistoryItem>, lookup: seq<Call>): (reply: Reply)
    requires ReadOnly(lookup)
    ensures reply.db == db
    ensures |reply.calls| > 0 && reply.calls[0] == FindLearned(user)
    ensures InsertedBatch(reply.calls) == []
    ensures ReadOnly(reply.calls)
    ensures reply.response.Words? && reply.response.previousWords == history
    ensures forall x :: x in reply.response.words <==> x in db.words && x.id in WordIds(today)
  {
    ReadOnlyWritesNothing(lookup);
    var calls := [FindLearned(user)] + [FindWords(WordIds(today))] + lookup;
    InsertedBatchSingle(FindLearned(user));
    InsertedBatchSingle(FindWords(WordIds(today)));
    InsertedBatchAppend([FindLearned(user)], [FindWords(WordIds(today))]);
    InsertedBatchAppend([FindLearned(user)] + [FindWords(WordIds(today))], lookup);
    Reply(Words(FindByIds(db.words, WordIds(today)), history), calls, db)
  }

  /** The reply when the user has no record today: the drawn words are
      served, and recorded when there are any. */
  function ServeSample(user: UserId, db: Db, seen: set<WordId>, sample: seq<Word>, clock: nat -> Millis, failed: set<LearnedWord>, history: seq<HistoryItem>, lookup: seq<Call>): (reply: Reply)
    requires ReadOnly(lookup)
    ensures reply.db.words == db.words
    ensures |reply.calls| > 0 && reply.calls[0] == FindLearned(user)
    ensures InsertedBatch(reply.calls) == Entries(user, sample, clock)
    ensures reply.db.learned == InsertUnordered(db.learned, Entries(user, sample, clock), failed)
    ensures reply.response == Words(sample, history)
    ensures sample == [] ==> ReadOnly(reply.calls)
    ensures sample != [] ==> InsertLearned(Entries(user, sample, clock)) in reply.calls
  {
    ReadOnlyWritesNothing(lookup);
    var sampling := [FindLearned(user)] + [SampleWords(seen, DailyCount)];
    InsertedBatchSingle(FindLearned(user));
    InsertedBatchSingle(SampleWords(seen, DailyCount));
    InsertedBatchAppend([FindLearned(user)], [SampleWords(seen, DailyCount)]);
    if |sample| > 0 then
      var entries := Entries(user, sample, clock);
      var calls := sampling + [InsertLearned(entries)] + lookup;
      InsertedBatchSingle(InsertLearned(entries));
      InsertedBatchAppend(sampling, [InsertLearned(entries)]);
      InsertedBatchAppend(sampling + [InsertLearned(entries)], lookup);
      assert calls[0] == FindLearned(user) && calls[2] == InsertLearned(entries);
      Reply(Words(sample, history), calls, db.(learned := InsertUnordered(db.learned, entries, failed)))
    else
      InsertedBatchAppend(sampling, lookup);
      ReadOnlyAppend([FindLearned(user)], [SampleWords(seen, DailyCount)]);
      ReadOnlyAppend(sampling, lookup);
      assert Entries(user, sample, clock) == [];
      assert InsertUnordered(db.learned, [], failed) == db.learned;
      assert (sampling + lookup)[0] == FindLearned(user);
      Reply(Words(sample, history), sampling + lookup, db)
  }

  /** The handler once the session has produced `user` and the window is
      known. When the user already has records in the window, their words
      are served again and nothing is written; otherwise a sample of the
      words never given to the user on any day is drawn and recorded.
      Either way the history is the earlier records' words, and the only
      change to the store is the effect of the trace's insert call. */
  function Respond(user: UserId, db: Db, w: Window, rand: seq<nat>, clock: nat -> Millis, failed: set<LearnedWord>): (reply: Reply)
    requires UniqueIds(db.words)
    ensures reply.response.Words?
    ensures |reply.calls| > 0 && reply.calls[0] == FindLearned(user)
    ensures reply.db.words == db.words
    ensures reply.db.learned == InsertUnordered(db.learned, InsertedBatch(reply.calls), failed)
    ensures var today := LearnedToday(LearnedBy(db.learned, user), w);
      today != [] ==>
        && reply.db == db
        && InsertedBatch(reply.calls) == []
        && (forall x :: x in reply.response.words <==> x in db.words && x.id in WordIds(today))
    ensures var mine := LearnedBy(db.learned, user);
      LearnedToday(mine, w) == [] ==>
        && IsSample(reply.response.words, Unseen(db.words, WordIds(mine)), DailyCount)
        && InsertedBatch(reply.calls) == Entries(user, reply.response.words, clock)
    ensures reply.response.previousWords == History(db.words, LearnedBefore(LearnedBy(db.learned, user), w))
  {
    var mine := LearnedBy(db.learned, user);
    var seen := WordIds(mine);
    var today := LearnedToday(mine, w);
    var previous := LearnedBefore(mine, w);
    var history := History(db.words, previous);
    var lookup := HistoryLookup(previous);
    if |today| > 0 then ServeAgain(user, db, today, history, lookup)
    else ServeSample(user, db, seen, Draw(Unseen(db.words, seen), DailyCount, rand), clock, failed, history, lookup)
  }

  /** A user with no record in today's window is served a sample of the
      catalog words never given to them on any day (today's, earlier or
      later records alike), as many as the daily count allows, and the
      store gains one ledger entry per served word. */
  lemma RespondDrawsUnseenWords(user: UserId, db: Db, w: Window, rand: seq<nat>, clock: nat -> Millis, failed: set<LearnedWord>)
    requires UniqueIds(db.words)
    requires LearnedToday(LearnedBy(db.learned, user), w) == []
    ensures var reply := Respond(user, db, w, rand, clock, failed);
      var mine := LearnedBy(db.learned, user);
      var pool := Unseen(db.words, WordIds(mine));
      var words := reply.response.words;
      && IsSample(words, pool, DailyCount)
      && |words| == Min(DailyCount, |pool|)
      && (forall x :: x in words ==> x in db.words && (forall r :: r in db.learned && r.userId == user ==> r.wordId != x.id))
      && reply.db.learned == InsertUnordered(db.learned, Entries(user, words, clock), failed)
  {
  }

  /** The request writes to the ledger exactly when it serves a fresh,
      non-empty sample; the reuse path and an exhausted catalog write
      nothing. */
  lemma RespondWritesOnlyNewSamples(user: UserId, db: Db, w: Window, rand: seq<nat>, clock: nat -> Millis, failed: set<LearnedWord>)
    requires UniqueIds(db.words)
    ensures var reply := Respond(user, db, w, rand, clock, failed);
      !ReadOnly(reply.calls) <==>
        LearnedToday(LearnedBy(db.learned, user), w) == [] && reply.response.words != []
  {
  }

  /** The records of the day and those of earlier days are disjoint, and a
      record stamped after the window is in neither yet still keeps its
      word out of every sample. */
  lemma RecordsPartition(mine: seq<LearnedWord>, w: Window, r: LearnedWord)
    requires r in mine
    ensures !(r in LearnedToday(mine, w) && r in LearnedBefore(mine, w))
    ensures r.learnedAt > w.end && w.start <= w.end ==> r !in LearnedToday(mine, w) && r !in LearnedBefore(mine, w)
    ensures r.wordId in WordIds(mine)
  {
  }

  /** Any admissible sample of the unseen words is a reply the handler can
      give: the model does not narrow what `$sample` may return. */
  lemma {:induction false} EveryUnseenSampleIsPossible(user: UserId, db: Db, w: Window, clock: nat -> Millis, failed: set<LearnedWord>, s: seq<Word>) returns (rand: seq<nat>)
    requires UniqueIds(db.words)
    requires LearnedToday(LearnedBy(db.learned, user), w) == []
    requires IsSample(s, Unseen(db.words, WordIds(LearnedBy(db.learned, user))), DailyCount)
    ensures Respond(user, db, w, rand, clock, failed).response.words == s
  {
    rand := DrawReachesEverySample(Unseen(db.words, WordIds(LearnedBy(db.learned, user))), DailyCount, s);
  }

  /** When no more than the daily count of unseen words is left, all of
      them are served. */
  lemma ExhaustedCatalogServesTheRest(user: UserId, db: Db, w: Window, rand: seq<nat>, clock: nat -> Millis, failed: set<LearnedWord>)
    requires UniqueIds(db.words)
    requires LearnedToday(LearnedBy(db.learned, user), w) == []
    requires |Unseen(db.words, WordIds(LearnedBy(db.learned, user)))| <= DailyCount
    ensures var words := Respond(user, db, w, rand, clock, failed).response.words;
      forall x :: x in words <==> x in db.words && x.id !in WordIds(LearnedBy(db.learned, user))
  {
    var pool := Unseen(db.words, WordIds(LearnedBy(db.learned, user)));
    var words := Respond(user, db, w, rand, clock, failed).response.words;
    RespondDrawsUnseenWords(user, db, w, rand, clock, failed);
    FullSelectionIsPool(words, pool);
  }

  /** Only the written words change; a failed write is not reported: the
      response and the trace are the same whatever fails. */
  lemma WriteFailuresAreSilent(user: UserId, db: Db, w: Window, rand: seq<nat>, clock: nat -> Millis, failed1: set<LearnedWord>, failed2: set<LearnedWord>)
    requires UniqueIds(db.words)
    ensures Respond(user, db, w, rand, clock, failed1).response == Respond(user, db, w, rand, clock, failed2).response
    ensures Respond(user, db, w, rand, clock, failed1).calls == Respond(user, db, w, rand, clock, failed2).calls
  {
  }

  /** Every entry of the request's write that did not fail is on the
      ledger afterwards, every entry is the user's own, and the ledger keeps
      at most one record per pair. */
  lemma RespondRecordsServedWords(user: UserId, db: Db, w: Window, rand: seq<nat>, clock: nat -> Millis, failed: set<LearnedWord>)
    requires UniqueIds(db.words) && UniquePairs(db.learned)
    ensures var reply := Respond(user, db, w, rand, clock, failed);
      && UniquePairs(reply.db.learned)
      && (forall e :: e in InsertedBatch(reply.calls) ==> e.userId == user)
      && (forall e :: e in InsertedBatch(reply.calls) && e !in failed ==> HasPair(reply.db.learned, e.userId, e.wordId))
    ensures var reply := Respond(user, db, w, rand, clock, failed);
      LearnedToday(LearnedBy(db.learned, user), w) == [] ==>
        forall i :: 0 <= i < |reply.response.words| && LearnedWord(user, reply.response.words[i].id, clock(i)) !in failed ==>
          HasPair(reply.db.learned, user, reply.response.words[i].id)
  {
    var reply := Respond(user, db, w, rand, clock, failed);
    var batch := InsertedBatch(reply.calls);
    InsertKeepsUniquePairs(db.learned, batch, failed);
    forall e | e in batch && e !in failed ensures HasPair(reply.db.learned, e.userId, e.wordId) {
      InsertStoresEveryPair(db.learned, batch, failed, e);
    }
    if LearnedToday(LearnedBy(db.learned, user), w) == [] {
      var words := reply.response.words;
      forall i | 0 <= i < |words| && LearnedWord(user, words[i].id, clock(i)) !in failed
        ensures HasPair(reply.db.learned, user, words[i].id)
      {
        assert batch[i] == LearnedWord(user, words[i].id, clock(i));
        assert batch[i] in batch;
      }
    }
  }

  /** The entries recorded for a sample of unseen words are pairwise
      distinct and none of their pairs is on the ledger yet. */
  lemma SampleEntriesAreFresh(user: UserId, ledger: seq<LearnedWord>, catalog: seq<Word>, s: seq<Word>, clock: nat -> Millis)
    requires UniqueIds(catalog) && Distinct(s)
    requires forall x :: x in s ==> x in catalog && x.id !in WordIds(LearnedBy(ledger, user))
    ensures UniquePairs(Entries(user, s, clock))
    ensures forall e :: e in Entries(user, s, clock) ==> !HasPair(ledger, e.userId, e.wordId)
  {
    var entries := Entries(user, s, clock);
    var mine := LearnedBy(ledger, user);
    DistinctWordsDistinctIds(catalog);
    forall a, b | 0 <= a < b < |entries|
      ensures entries[a].userId != entries[b].userId || entries[a].wordId != entries[b].wordId
    {
      assert s[a] in s && s[b] in s && s[a] != s[b];
    }
    forall e | e in entries ensures !HasPair(ledger, e.userId, e.wordId) {
      var i :| 0 <= i < |entries| && entries[i] == e;
      assert s[i] in s;
      forall k | 0 <= k < |ledger| && ledger[k].userId == user ensures ledger[k].wordId != s[i].id {
        assert ledger[k] in mine;
      }
    }
  }

  /** After recording a fresh sample inside the window, the user's records
      of the day are exactly the new entries. */
  lemma RecordedSampleIsToday(user: UserId, ledger: seq<LearnedWord>, w: Window, s: seq<Word>, clock: nat -> Millis, after: seq<LearnedWord>)
    requires LearnedToday(LearnedBy(ledger, user), w) == []
    requires forall i :: 0 <= i < |s| ==> Contains(w, clock(i))
    requires after == ledger + Entries(user, s, clock)
    ensures forall r :: r in LearnedToday(LearnedBy(after, user), w) <==> r in Entries(user, s, clock)
  {
    var entries := Entries(user, s, clock);
    var today' := LearnedToday(LearnedBy(after, user), w);
    forall r ensures r in today' <==> r in entries {
      assert r !in LearnedToday(LearnedBy(ledger, user), w);
      if r in entries {
        var i :| 0 <= i < |entries| && entries[i] == r;
        assert Contains(w, clock(i));
      }
    }
  }

  /** Looking the recorded entries' ids up in the catalog gives back the
      sample they were made from. */
  lemma LookupFindsRecordedSample(user: UserId, catalog: seq<Word>, s: seq<Word>, clock: nat -> Millis, today: seq<LearnedWord>)
    requires UniqueIds(catalog)
    requires forall x :: x in s ==> x in catalog
    requires forall r :: r in today <==> r in Entries(user, s, clock)
    ensures forall x :: x in catalog && x.id in WordIds(today) <==> x in s
  {
    var entries := Entries(user, s, clock);
    DistinctWordsDistinctIds(catalog);
    forall x ensures x in catalog && x.id in WordIds(today) <==> x in s {
      if x in s {
        var i :| 0 <= i < |s| && s[i] == x;
        assert entries[i] in today;
      }
      if x in catalog && x.id in WordIds(today) {
        var r :| r in today && r.wordId == x.id;
        var i :| 0 <= i < |entries| && entries[i] == r;
        assert s[i] in s;
      }
    }
  }

  /** A second request on the same day, after a first one whose writes
      landed inside the window, serves the same words and writes nothing. */
  lemma {:induction false} SameDayRequestsAgree(user: UserId, db: Db, w: Window, rand1: seq<nat>, clock1: nat -> Millis, rand2: seq<nat>, clock2: nat -> Millis, failed2: set<LearnedWord>)
    requires UniqueIds(db.words)
    requires forall i :: 0 <= i < DailyCount ==> Contains(w, clock1(i))
    ensures var first := Respond(user, db, w, rand1, clock1, {});
      var second := Respond(user, first.db, w, rand2, clock2, failed2);
      && second.db == first.db
      && (forall x :: x in second.response.words <==> x in first.response.words)
  {
    var mine := LearnedBy(db.learned, user);
    var first := Respond(user, db, w, rand1, clock1, {});
    var s := first.response.words;
    if LearnedToday(mine, w) == [] {
      var pool := Unseen(db.words, WordIds(mine));
      var entries := Entries(user, s, clock1);
      assert IsSample(s, pool, DailyCount);
      assert |s| <= DailyCount && forall x :: x in s ==> x in db.words;
      assert forall i :: 0 <= i < |s| ==> Contains(w, clock1(i));
      if s != [] {
        SampleEntriesAreFresh(user, db.learned, db.words, s, clock1);
        InsertFreshBatch(db.learned, entries);
        assert first.db.learned == db.learned + entries;
        RecordedSampleIsToday(user, db.learned, w, s, clock1, first.db.learned);
        var today' := LearnedToday(LearnedBy(first.db.learned, user), w);
        LookupFindsRecordedSample(user, db.words, s, clock1, today');
        assert entries[0] in today';
      }
    }
  }

  /** Two first requests of a day that both read the ledger before either
      writes (the race the unique index exists for): applying the second
      request's write after the first's keeps one record per pair, and
      every entry either request wrote without failure is stored. */
  lemma ConcurrentRequestsKeepPairsUnique(user: UserId, db: Db, w: Window, rand1: seq<nat>, clock1: nat -> Millis, failed1: set<LearnedWord>, rand2: seq<nat>, clock2: nat -> Millis, failed2: set<LearnedWord>)
    requires UniqueIds(db.words) && UniquePairs(db.learned)
    ensures var first := Respond(user, db, w, rand1, clock1, failed1);
      var second := Respond(user, db, w, rand2, clock2, failed2);
      var merged := InsertUnordered(first.db.learned, InsertedBatch(second.calls), failed2);
      && UniquePairs(merged)
      && (forall e :: e in InsertedBatch(first.calls) && e !in failed1 ==> HasPair(merged, e.userId, e.wordId))
      && (forall e :: e in InsertedBatch(second.calls) && e !in failed2 ==> HasPair(merged, e.userId, e.wordId))
  {
    var first := Respond(user, db, w, rand1, clock1, failed1);
    var second := Respond(user, db, w, rand2, clock2, failed2);
    var batch2 := InsertedBatch(second.calls);
    var merged := InsertUnordered(first.db.learned, batch2, failed2);
    RespondRecordsServedWords(user, db, w, rand1, clock1, failed1);
    InsertKeepsUniquePairs(first.db.learned, batch2, failed2);
    forall e | e in InsertedBatch(first.calls) && e !in failed1 ensures HasPair(merged, e.userId, e.wordId) {
      HasPairExtends(first.db.learned, merged, e.userId, e.wordId);
    }
    forall e | e in batch2 && e !in failed2 ensures HasPair(merged, e.userId, e.wordId) {
      InsertStoresEveryPair(first.db.learned, batch2, failed2, e);
    }
  }

  /** The whole handler, as written: no session user means a 401 before
      any store call; otherwise the request is answered within the window
      `getTodayRangeET` computes for `now`. */
  function Get(session: Option<UserId>, db: Db, now: Millis, zone: Zone, rand: seq<nat>, clock: nat -> Millis, failed: set<LearnedWord>): (reply: Reply)
    requires UniqueIds(db.words)
    ensures reply.response.Unauthorized? <==> session.None?
    ensures session.None? ==> reply.calls == [] && reply.db == db
    ensures session.Some? ==> |reply.calls| > 0 && reply.calls[0] == FindLearned(session.value)
    ensures reply.db.words == db.words
  {
    match session
    case None => Reply(Unauthorized, [], db)
    case Some(user) => Respond(user, db, TodayRangeAsWritten(now, zone), rand, clock, failed)
  }

  /** The handler with the window it is meant to use: the instants of the
      New York calendar day of `now`. */
  function GetCorrected(session: Option<UserId>, db: Db, now: Millis, zone: Zone, rand: seq<nat>, clock: nat -> Millis, failed: set<LearnedWord>): (reply: Reply)
    requires UniqueIds(db.words) && WellFormedZone(zone)
    ensures reply.response.Unauthorized? <==> session.None?
    ensures session.None? ==> reply.calls == [] && reply.db == db
    ensures session.Some? ==> |reply.calls| > 0 && reply.calls[0] == FindLearned(session.value)
    ensures reply.db.words == db.words
  {
    match session
    case None => Reply(Unauthorized, [], db)
    case Some(user) => Respond(user, db, TodayRange(now, zone), rand, clock, failed)
  }

  /** Today's records are exactly those of the New York calendar day of
      `now`, and the history's records exactly those of earlier days; a
      record stamped on a later day falls in neither. */
  lemma RecordsSplitByNewYorkDay(mine: seq<LearnedWord>, now: Millis, zone: Zone)
    requires WellFormedZone(zone)
    ensures var w := TodayRange(now, zone);
      && (forall r :: r in LearnedToday(mine, w) <==> r in mine && LocalDay(zone, r.learnedAt) == LocalDay(zone, now))
      && (forall r :: r in LearnedBefore(mine, w) <==> r in mine && LocalDay(zone, r.learnedAt) < LocalDay(zone, now))
  {
    var w := TodayRange(now, zone);
    forall r | r in mine
      ensures Contains(w, r.learnedAt) <==> LocalDay(zone, r.learnedAt) == LocalDay(zone, now)
      ensures r.learnedAt < w.start <==> LocalDay(zone, r.learnedAt) < LocalDay(zone, now)
    {
      OtherDaysOutsideWindow(zone, now, r.learnedAt);
      if r.learnedAt < w.start {
        assert !Contains(w, r.learnedAt);
      }
    }
  }

  /** With the corrected window, requests at two instants of the same New
      York day, the first of which records its words on that day, are
      answered with the same words, and the second writes nothing. */
  lemma {:induction false} SameDayGetsAgree(user: UserId, db: Db, zone: Zone, now1: Millis, rand1: seq<nat>, clock1: nat -> Millis, now2: Millis, rand2: seq<nat>, clock2: nat -> Millis, failed2: set<LearnedWord>)
    requires UniqueIds(db.words) && WellFormedZone(zone)
    requires LocalDay(zone, now1) == LocalDay(zone, now2)
    requires forall i :: 0 <= i < DailyCount ==> LocalDay(zone, clock1(i)) == LocalDay(zone, now1)
    ensures var first := GetCorrected(Some(user), db, now1, zone, rand1, clock1, {});
      var second := GetCorrected(Some(user), first.db, now2, zone, rand2, clock2, failed2);
      && second.db == first.db
      && (forall x :: x in second.response.words <==> x in first.response.words)
  {
    var w := TodayRange(now1, zone);
    SameDaySameWindow(zone, now1, now2);
    SameDayRequestsAgree(user, db, w, rand1, clock1, rand2, clock2, failed2);
  }

  /** A catalog word with id `id` and an empty body. */
  function BareWord(id: WordId): Word {
    Word(id, WordEntry("", "", "", [], Translations("", "", "")), 0)
  }

  /** On the morning of the 2026 spring-forward day, a learner whose only
      record was stamped at 23:30 EST the evening before is served that
      word again by the handler as written, and nothing is recorded; the
      corrected handler treats the record as an earlier day's and records
      a new word. */
  lemma AsWrittenGetServesYesterday(rand: seq<nat>, clock: nat -> Millis, failed: set<LearnedWord>)
    ensures var noon := 1_772_985_600_000;
      var lastEvening := 1_772_944_200_000;
      var db := Db([BareWord(0), BareWord(1)], [LearnedWord(7, 0, lastEvening)]);
      var written := Get(Some(7), db, noon, NewYorkMarch2026, rand, clock, failed);
      && LocalDay(NewYorkMarch2026, lastEvening) < LocalDay(NewYorkMarch2026, noon)
      && written.db == db
      && (forall x :: x in written.response.words <==> x == BareWord(0))
      && WellFormedZone(NewYorkMarch2026)
      && GetCorrected(Some(7), db, noon, NewYorkMarch2026, rand, clock, {}).db != db
  {
    var noon := 1_772_985_600_000;
    var db := Db([BareWord(0), BareWord(1)], [LearnedWord(7, 0, 1_772_944_200_000)]);
    assert UniqueIds(db.words);
    NewYorkMarch2026IsWellFormed();
    AsWrittenWindowOpensAnHourEarly();
    GetDecidesBetweenReuseAndSample(7, db, noon, NewYorkMarch2026, BareWord(1), rand, clock, failed);
    var written := Get(Some(7), db, noon, NewYorkMarch2026, rand, clock, failed);
    forall x ensures x in written.response.words <==> x == BareWord(0) {
      assert x in db.words && x.id == 0 <==> x == BareWord(0);
    }
  }

  /** A learner's single record lies in the handler's window as written
      but before the corrected window: the handler as written serves that
      record's word again and writes nothing, the corrected one records a
      further word. */
  lemma GetDecidesBetweenReuseAndSample(user: UserId, db: Db, now: Millis, zone: Zone, other: Word,
                                        rand: seq<nat>, clock: nat -> Millis, failed: set<LearnedWord>)
    requires UniqueIds(db.words) && WellFormedZone(zone)
    requires |db.learned| == 1 && db.learned[0].userId == user
    requires Contains(TodayRangeAsWritten(now, zone), db.learned[0].learnedAt)
    requires db.learned[0].learnedAt < TodayRange(now, zone).start
    requires other in db.words && other.id != db.learned[0].wordId
    ensures var written := Get(Some(user), db, now, zone, rand, clock, failed);
      && written.db == db
      && (forall x :: x in written.response.words <==> x in db.words && x.id == db.learned[0].wordId)
      && GetCorrected(Some(user), db, now, zone, rand, clock, {}).db != db
  {
    WindowDecidesBetweenReuseAndSample(user, db, TodayRangeAsWritten(now, zone), TodayRange(now, zone), other, rand, clock, failed);
  }

  /** A learner's single record lies in one window and before another:
      a request in the first window serves that record's word again and
      writes nothing, one in the second records a further word. */
  lemma WindowDecidesBetweenReuseAndSample(user: UserId, db: Db, inside: Window, after: Window, other: Word,
                                           rand: seq<nat>, clock: nat -> Millis, failed: set<LearnedWord>)
    requires UniqueIds(db.words)
    requires |db.learned| == 1 && db.learned[0].userId == user
    requires Contains(inside, db.learned[0].learnedAt) && db.learned[0].learnedAt < after.start
    requires other in db.words && other.id != db.learned[0].wordId
    ensures var reply := Respond(user, db, inside, rand, clock, failed);
      && reply.db == db
      && (forall x :: x in reply.response.words <==> x in db.words && x.id == db.learned[0].wordId)
      && Respond(user, db, after, rand, clock, {}).db != db
  {
    OnlyRecordInWindowIsServedAgain(user, db, inside, rand, clock, failed);
    assert !HasPair(db.learned, user, other.id);
    var _ := SecondRequestSamplesAgain(user, db, after, other, rand, clock);
  }

  /** A learner whose single record lies in the window is served that
      record's word again, and the store is left as it was. */
  lemma OnlyRecordInWindowIsServedAgain(user: UserId, db: Db, w: Window, rand: seq<nat>, clock: nat -> Millis, failed: set<LearnedWord>)
    requires UniqueIds(db.words)
    requires |db.learned| == 1 && db.learned[0].userId == user && Contains(w, db.learned[0].learnedAt)
    ensures var reply := Respond(user, db, w, rand, clock, failed);
      && reply.db == db
      && forall x :: x in reply.response.words <==> x in db.words && x.id == db.learned[0].wordId
  {
    var r := db.learned[0];
    var mine := LearnedBy(db.learned, user);
    assert r in mine;
    var today := LearnedToday(mine, w);
    assert r in today;
    forall q | q in today ensures q == r {
      var k :| 0 <= k < |db.learned| && db.learned[k] == q;
    }
    assert WordIds(today) == {r.wordId};
  }

  /** Two requests at 00:00:00.300 and 00:00:00.900 EDT on 2026-03-10 by
      one learner on an empty ledger, the first recording its words before the
      second arrives: the second request's window as written starts at
      00:00:00.900, so it counts the first request's records as an earlier
      day's, serves a word the first did not and records it. */
  lemma AsWrittenSecondRequestSamplesAgain(rand1: seq<nat>, clock1: nat -> Millis, rand2: seq<nat>, clock2: nat -> Millis)
    requires forall i :: 0 <= i < DailyCount ==> 1_773_115_200_300 <= clock1(i) < 1_773_115_200_900
    ensures var now1 := 1_773_115_200_300;
      var now2 := 1_773_115_200_900;
      var db := Db([BareWord(0), BareWord(1), BareWord(2)], []);
      var first := Get(Some(7), db, now1, NewYorkMarch2026, rand1, clock1, {});
      var second := Get(Some(7), first.db, now2, NewYorkMarch2026, rand2, clock2, {});
      && LocalDay(NewYorkMarch2026, now1) == LocalDay(NewYorkMarch2026, now2)
      && (forall i :: 0 <= i < DailyCount ==> LocalDay(NewYorkMarch2026, clock1(i)) == LocalDay(NewYorkMarch2026, now1))
      && second.db != first.db
      && (exists x :: x in second.response.words && x !in first.response.words)
  {
    assert UniqueIds([BareWord(0), BareWord(1), BareWord(2)]);
    AsWrittenWindowStartsAtRequest();
    var w2 := TodayRangeAsWritten(1_773_115_200_900, NewYorkMarch2026);
    RequestAfterWindowStartSamplesAgain(7, [BareWord(0), BareWord(1), BareWord(2)],
      TodayRangeAsWritten(1_773_115_200_300, NewYorkMarch2026), w2, rand1, clock1, rand2, clock2);
  }

  /** A learner asks twice, starting on an empty ledger, and the second request's
      window starts after every record the first one wrote: when the
      catalog holds more than a day's words, the second request records a
      further word and serves one the first did not. */
  lemma RequestAfterWindowStartSamplesAgain(user: UserId, catalog: seq<Word>, w1: Window, w2: Window,
                                            rand1: seq<nat>, clock1: nat -> Millis, rand2: seq<nat>, clock2: nat -> Millis)
    requires UniqueIds(catalog) && |catalog| > DailyCount
    requires forall i :: 0 <= i < DailyCount ==> clock1(i) < w2.start
    ensures var first := Respond(user, Db(catalog, []), w1, rand1, clock1, {});
      var second := Respond(user, first.db, w2, rand2, clock2, {});
      && second.db != first.db
      && exists x :: x in second.response.words && x !in first.response.words
  {
    var first := Respond(user, Db(catalog, []), w1, rand1, clock1, {});
    var left := FirstRequestLeavesRoom(user, catalog, w1, rand1, clock1, w2.start);
    var y := SecondRequestSamplesAgain(user, first.db, w2, left, rand2, clock2);
    var second := Respond(user, first.db, w2, rand2, clock2, {});
    assert y in second.response.words && y !in first.response.words;
  }

  /** After a learner's first request on an empty ledger, when the
      catalog holds more than a day's words: some catalog word is still
      not in the learner's ledger, every served word is, and every record
      predates any instant after the clock readings taken. */
  lemma FirstRequestLeavesRoom(user: UserId, catalog: seq<Word>, w: Window, rand: seq<nat>, clock: nat -> Millis, later: Millis) returns (left: Word)
    requires UniqueIds(catalog) && |catalog| > DailyCount
    requires forall i :: 0 <= i < DailyCount ==> clock(i) < later
    ensures var first := Respond(user, Db(catalog, []), w, rand, clock, {});
      && left in first.db.words && !HasPair(first.db.learned, user, left.id)
      && (forall x :: x in first.response.words ==> HasPair(first.db.learned, user, x.id))
      && (forall r :: r in first.db.learned && r.userId == user ==> r.learnedAt < later)
  {
    var s := FirstRequestOnEmptyLedger(user, catalog, w, rand, clock);
    var first := Respond(user, Db(catalog, []), w, rand, clock, {});
    left := ShorterMissesOne(s, catalog);
    DistinctWordsDistinctIds(catalog);
    forall k | 0 <= k < |first.db.learned| && first.db.learned[k].userId == user
      ensures first.db.learned[k].wordId != left.id && first.db.learned[k].learnedAt < later
    {
      var r := first.db.learned[k];
      assert r in first.db.learned;
      var i :| 0 <= i < |s| && r.wordId == s[i].id && r.learnedAt == clock(i);
      assert s[i] in s && s[i] != left;
    }
  }

  /** A learner's first request on an empty ledger is served a sample of
      the whole catalog, and the ledger afterwards holds exactly one record
      per served word, stamped with that entry's clock reading. */
  lemma FirstRequestOnEmptyLedger(user: UserId, catalog: seq<Word>, w: Window, rand: seq<nat>, clock: nat -> Millis) returns (s: seq<Word>)
    requires UniqueIds(catalog)
    ensures var first := Respond(user, Db(catalog, []), w, rand, clock, {});
      && s == first.response.words
      && |s| == Min(DailyCount, |catalog|)
      && (forall x :: x in s ==> x in catalog && HasPair(first.db.learned, user, x.id))
      && (forall r :: r in first.db.learned ==>
            r.userId == user && exists i :: 0 <= i < |s| && r.wordId == s[i].id && r.learnedAt == clock(i))
  {
    var db := Db(catalog, []);
    var mine := LearnedBy(db.learned, user);
    assert mine == [];
    assert Unseen(catalog, WordIds(mine)) == catalog;
    RespondDrawsUnseenWords(user, db, w, rand, clock, {});
    RespondRecordsServedWords(user, db, w, rand, clock, {});
    var reply := Respond(user, db, w, rand, clock, {});
    s := reply.response.words;
    var entries := Entries(user, s, clock);
    InsertAddsOnlyBatchEntries([], entries, {});
    forall x | x in s ensures HasPair(reply.db.learned, user, x.id) {
      var i :| 0 <= i < |s| && s[i] == x;
      assert LearnedWord(user, s[i].id, clock(i)) !in {};
    }
    forall r | r in reply.db.learned
      ensures r.userId == user && exists i :: 0 <= i < |s| && r.wordId == s[i].id && r.learnedAt == clock(i)
    {
      var k :| 0 <= k < |reply.db.learned| && reply.db.learned[k] == r;
      var i :| 0 <= i < |entries| && entries[i] == r;
      assert r.wordId == s[i].id && r.learnedAt == clock(i);
    }
  }

  /** A request whose window starts after every record of the learner,
      while the catalog word x was never given to them: none of the records
      counts as today's, so the request serves and records a word the
      ledger did not hold for the learner. */
  lemma SecondRequestSamplesAgain(user: UserId, db: Db, w: Window, x: Word, rand: seq<nat>, clock: nat -> Millis) returns (y: Word)
    requires UniqueIds(db.words)
    requires forall r :: r in db.learned && r.userId == user ==> r.learnedAt < w.start
    requires x in db.words && !HasPair(db.learned, user, x.id)
    ensures var second := Respond(user, db, w, rand, clock, {});
      && second.db != db
      && y in second.response.words && !HasPair(db.learned, user, y.id)
  {
    var mine := LearnedBy(db.learned, user);
    var today := LearnedToday(mine, w);
    EmptyWithoutMembers(today);
    assert forall r :: r !in today;
    forall r | r in mine ensures r.wordId != x.id {
      var k :| 0 <= k < |db.learned| && db.learned[k] == r;
    }
    var pool := Unseen(db.words, WordIds(mine));
    assert x in pool;
    RespondDrawsUnseenWords(user, db, w, rand, clock, {});
    var s := Respond(user, db, w, rand, clock, {}).response.words;
    assert s != [];
    y := s[0];
    assert y in pool;
    forall k | 0 <= k < |db.learned| && db.learned[k].userId == user ensures db.learned[k].wordId != y.id {
      assert db.learned[k] in mine;
    }
    var entries := Entries(user, s, clock);
    assert entries[0] in entries;
    InsertOfUnstoredPairGrows(db.learned, entries, {}, entries[0]);
  }
}
